=== FILE: README.md ===
# Meal-ticket kiosk: a Dafny model of its ticket core

The kiosk issues meal tickets to roster members at a terminal. A ticket is
a row in a local SQLite table, written while the terminal may be offline,
and reconciled with the server by a periodic sync. This project models
that core as pure functions over immutable data:

- **The local store** (`src/services/database.ts`):
  - `TicketStore`: the ticket table, with `saveTicket`, `ticketExists`,
    `getTicketStats`, `deleteTicketByUuid` and `syncService.syncData`.
  - `CatalogStore`: the upserts `savePeriodo`, `saveComida`,
    `saveComidaPeriodo` and `saveUser`, and `getCurrentPeriodo`.
  - `Retry`: the `withRetry` wrapper.
  - `StoreRetry`: the wrapper applied to `saveTicket`.
- **The meal resolver** `getCurrentMeal` (`MealResolver`): the daily
  windows, including windows that cross midnight.
- **Ticket issuance** `handleCrearTicket` / `handleSaveTicket`
  (`Issuance`): the ordered checks, the roster lookup, the UUIDv5 name, the
  once-per-user-meal-period rule and its override codes.
- **The sync run** `syncTickets` (`SyncEngine`, with its theorems in
  `SyncProofs` and `SyncRunProofs`):
  - the five-minute throttle and the offline guard;
  - the paged download, the filter to the active meal and the uuid-keyed
    merge;
  - the upload of pending tickets, the backup-then-prune step and the final
    status.
- **The pieces around it**:
  - the CSV backup text (`Backup`);
  - the weighted progress bar (`Progress`);
  - the in-memory statistics (`SessionStats`);
  - the paged roster download (`Roster`);
  - the keypad and the barcode-scanner input (`Keypad`).

Conventions:

- An integer id of 0 stands for an absent or falsy value, as JavaScript's
  `x || null` treats it.
- A table is the sequence of its rows, plus the AUTOINCREMENT high-water
  mark for tables with a local key.
- Server replies, the clock, the connectivity flag and the UUIDv5 hash are
  parameters.
- Times of day are milliseconds after midnight.

Where the code and its documentation disagree, the model follows the code:

- **A failed page download is fatal.** `syncTickets` does not catch it in
  the page loop, so an exception from any page request ends the whole run
  as failed. Only the total-count request is documented as fatal.
- **A meal window's start is exclusive.** The resolver uses `isAfter`, so
  a meal starting at 08:00 is not active at exactly 08:00.
- **A missing period is checked late.** It ends the run only after the
  download has been made.
- **The mid-run refresh writes nothing.** `syncTickets` calls
  `handleGetTickets` to refresh mid-run. That function's page guard expects
  an array, and the paged reply is an object, so the call writes nothing.
  It appears only as a request in the trace.
- **Scans bypass the length limit.** The 10-character keypad limit does not
  apply to scanned text that has no second word: that text becomes the code
  whatever its length.
- **The roster download asks for one page too many.** It requests pages 1
  to `ceil(n/300) + 1`.
- **Uuids repeat across periods.** A regular code issued on the same day
  in two periods yields two rows with the same uuid.

Step 6 of the run, the backup and prune, is modelled twice, and a run
takes the rule as a parameter (see Findings):

- **As written.** The backup holds the tickets pending at the start, and
  the synced tickets the server lacks are deleted only when that backup
  is non-empty. With nothing pending, nothing is deleted: the merge has
  marked such a ticket pending again, and the next run uploads it.
- **As intended.** The backup holds the synced tickets the server lacks,
  and the deletion is gated on that backup. So those tickets are deleted
  whether or not anything was pending.

## Model

| member | source | states |
|---|---|---|
| TicketStore.SaveTicket | src/services/database.ts:238-292 | The save fails exactly when user, meal or uuid is missing. With an id, it overwrites precisely the rows with that id and reports `isNew` false. Without an id, it appends one row under a fresh id (last id + 1) that no existing row has, and reports `isNew`. An empty `create_at` defaults to the clock. Id uniqueness is preserved. |
| TicketStore.TicketExists | src/services/database.ts:330-345 | True iff some row has the same user, meal and period. |
| TicketStore.TicketExistsIgnoresUuid | src/services/database.ts:330-345 | The duplicate check gives the same answer for tables that differ only in their uuids. |
| TicketStore.TicketStats | src/services/database.ts:358-391 | `total = pending + synced`. `total` is the number of rows of the period and meal, and `pending` the number of those still pending. |
| TicketStore.DeleteTicketByUuid | src/services/database.ts:400-405 | The empty uuid changes nothing. Otherwise every row with that uuid is removed and every other row is kept. The count drops by the number of matching rows, and id uniqueness is preserved. |
| TicketStore.MarkAllSynced | src/services/database.ts:539-556 | Every row of a valid table ends up synced. No field other than the pending flag changes. |
| Retry.WithRetry | src/services/database.ts:56-79 | Makes at most `maxRetries` attempts and stops at the first success. Every earlier attempt threw. The waits between attempts double from `retryDelay`. With no retries allowed, nothing is attempted. On failure the last error is returned. |
| StoreRetry.SaveTicketRetried | src/services/database.ts:241-247 | A complete ticket is saved on the first attempt with no wait. An incomplete ticket is attempted twice, with one wait of 100 ms, and fails with "Datos incompletos para ticket". |
| CatalogStore.UpsertKeepsKeyUnique | src/services/database.ts:428-444 | INSERT OR REPLACE keeps the primary key unique. |
| CatalogStore.SavePeriod | src/services/database.ts:428-444 | The new period row is present, and it is the only row with its id. Every other row is kept, and no other row appears. |
| CatalogStore.SaveMeal | src/services/database.ts:462-478 | The same upsert guarantees, keyed by meal id. |
| CatalogStore.LinkWithDefaults | src/services/database.ts:516-535 | A falsy hours-before or maximum-persons value becomes 1, and an empty subsidy becomes "0.00". A value that is present is kept, and every other field is unchanged. |
| CatalogStore.SaveLink | src/services/database.ts:516-535 | The defaulted link replaces any row with the same link id, and any row with the same period and meal pair. Every other row is kept. |
| CatalogStore.SaveUser | src/services/database.ts:168-186 | The user is stored under a fresh local id and is the only row with its server user id. The other users are kept. |
| CatalogStore.CurrentPeriod | src/services/database.ts:446-457 | Returns None iff no active period (`estado = 1`) contains today. Otherwise it returns an active period containing today, with the highest id among those. |
| MealResolver.CorrectedEnd | src/contexts/AppContext.tsx:355-359 | An end before the start is moved to the next day. Any other end is kept. |
| MealResolver.CurrentMeal | src/contexts/AppContext.tsx:350-366 | Returns None iff no linked meal is serving at that time, in particular when the period has no links. Otherwise it returns the first serving meal in link order. |
| MealResolver.MidnightWindowMatchesOnlyAfterStart | src/contexts/AppContext.tsx:355-363 | A window crossing midnight matches a time of day only after its start. The early-morning part up to the end never matches. |
| MealResolver.BreakfastBoundaries | src/contexts/AppContext.tsx:360-363 | An 08:00 to 09:00 window matches 08:30. It matches neither 07:59 nor either bound, 08:00 and 09:00. |
| Issuance.CreateTicket | src/contexts/AppContext.tsx:1191-1377 | Checks run in this order: start-up, blank code, period, meal, empty roster, unknown code, duplicate. Each failing check leaves the table unchanged. The user is the first roster entry with the code. The soft success "already served" happens iff the code is not an override code and a ticket for that user, meal and period exists. Otherwise the ticket is saved iff it is complete, else the save fails. An issued ticket is appended as pending under the next id: exactly the built ticket, for the matched user, the active meal and the loaded period. |
| Issuance.RegularUuidIgnoresTime | src/contexts/AppContext.tsx:1281-1294 | The uuid name of a regular code does not depend on the time of issue. |
| Issuance.SpecialNamesDiffer | src/contexts/AppContext.tsx:1281-1294 | Override-code names issued at different milliseconds differ. |
| Issuance.RegularCodeIssuedOnce | src/contexts/AppContext.tsx:1301-1316 | Issuing a regular code a second time, in the same session, ends in the soft "already served" outcome, and the table is unchanged. |
| Issuance.SpecialCodeAlwaysAppends | src/contexts/AppContext.tsx:1301-1316 | An override code known to the roster is issued and adds one row, even when a ticket already exists, provided every roster user id and the meal id are non-zero and the hash is never empty. |
| Issuance.SameDayTwoPeriodsShareUuid | src/contexts/AppContext.tsx:1286-1294 | The same regular code issued on the same day under a second period adds a second row with the same uuid as the first. |
| Issuance.IssueScenario | src/contexts/AppContext.tsx:1286-1299 | A concrete issuance of code "1234" on 2024-03-15 is issued. It stores a pending ticket for user 77, meal 5 and period 9, whose uuid is the hash of the name "77-5-20240315". |
| SyncEngine.PageCount | src/contexts/AppContext.tsx:827-829 | The smallest number of 600-ticket pages that covers the count. |
| SyncEngine.FetchPages | src/contexts/AppContext.tsx:866-888 | Succeeds iff no page request threw. On success it requests every page in order and gathers only the tickets of pages answered "ok". |
| SyncEngine.FetchGathers | src/contexts/AppContext.tsx:866-888 | A finished download holds all the tickets of every page answered "ok", in page order, compared with an independent per-page definition. |
| SyncEngine.ForMeal | src/contexts/AppContext.tsx:895-901 | Keeps exactly the server tickets of the active meal, and nothing when no meal is active. |
| SyncEngine.LocalIndex | src/contexts/AppContext.tsx:804-806 | The uuid map has exactly the local uuids as keys. |
| SyncEngine.LocalIndexLast | src/contexts/AppContext.tsx:804-806 | The map holds, for each uuid, the last local ticket with that uuid, as `new Map` keeps it. |
| SyncEngine.FromServer | src/contexts/AppContext.tsx:906-928 | One update or create per server ticket. An update overlays server fields on the local ticket with the same uuid, and a create adds an unknown uuid, synced. |
| SyncEngine.Unmatched | src/contexts/AppContext.tsx:930-937 | Re-marks as pending the local tickets whose uuid the meal's server tickets lack. |
| SyncEngine.SaveAll | src/contexts/AppContext.tsx:939-961 | The save loop succeeds iff every ticket with a uuid is complete, and it preserves id uniqueness. |
| SyncEngine.UploadFrom | src/contexts/AppContext.tsx:963-1004 | Sends one create request per pending ticket, in order. A ticket is settled when the reply is "ok" or "limitcomidauser" and the re-save accepts it. Any other reply, or an exception, counts the ticket as failed. The failure count is the pending count minus the settled count. |
| SyncEngine.DeleteAll | src/contexts/AppContext.tsx:1091-1103 | No deleted uuid survives. Every other row is kept. |
| SyncEngine.PruneStep | src/contexts/AppContext.tsx:1006-1013 | The code as written. The backup holds the pending tickets, and it is non-empty iff some ticket is pending. Every pending ticket is in the backup. The deletions are the synced tickets absent from the server, made only when the backup is non-empty. |
| SyncEngine.PruneStepIntended | src/contexts/AppContext.tsx:1006-1013 | Every deleted ticket is in the backup, and the backup holds exactly the synced tickets absent from the server. |
| SyncEngine.StatusMessage | src/contexts/AppContext.tsx:1105-1122 | The message reports plain success iff there were no failures. |
| SyncEngine.Reconcile | src/contexts/AppContext.tsx:889-1137 | After the download, the run either fails or completes. It stamps the last-sync time, only extends the request trace and preserves id uniqueness. Its prune step is the one the given rule names. |
| SyncEngine.SyncRun | src/contexts/AppContext.tsx:737-1159 | For either prune rule, a run is skipped iff throttled, and is offline iff not throttled and offline. Those two change nothing and make no request. Every other run starts with the count request and stamps the last-sync time. Id uniqueness is preserved. |
| SyncProofs.MergeOutcome | src/contexts/AppContext.tsx:906-961 | For a table with distinct ids, distinct uuids and complete rows, and a download of complete tickets without ids and without repeated uuids (see Left out): every local row with a server counterpart becomes the overlay. Every other local row is re-saved as pending. The server's new tickets are appended under fresh ids. |
| SyncProofs.MergeMarks | src/contexts/AppContext.tsx:906-961 | For a table with distinct ids, distinct uuids and complete rows, and a download of complete tickets without ids and without repeated uuids (see Left out): after the merge, every server ticket of the meal is stored synced, and every local ticket the server lacks is pending. |
| SyncProofs.UploadRows | src/contexts/AppContext.tsx:984-997 | Each settled ticket's row is marked synced with the server's id. Every other row is untouched. |
| SyncRunProofs.ThrottleWindow | src/contexts/AppContext.tsx:741-743 | A run 299 999 ms after the last one is skipped, and one 300 000 ms after it is not. A forced run, or a first run, is never skipped. |
| SyncRunProofs.PageCountBoundaries | src/contexts/AppContext.tsx:827-829 | Counts 0, 1, 600 and 601 need 0, 1, 1 and 2 pages. |
| SyncRunProofs.NoPeriodAfterDownload | src/contexts/AppContext.tsx:889-892 | With no period, the count and every page are still requested and the last-sync time is stamped. The table is unchanged. |
| SyncRunProofs.PageThrowFails | src/contexts/AppContext.tsx:870-1138 | When any page request throws, the run fails with the table unchanged, no backup and no deletion, and the last-sync time is still stamped. |
| SyncRunProofs.CountFailureStillStamps | src/contexts/AppContext.tsx:818-825 | A refused count fails the run after one request. The table is unchanged and the last-sync time is still stamped. |
| SyncRunProofs.PruneRemoves | src/contexts/AppContext.tsx:1006-1103 | With the intended prune rule only (see Findings): a synced ticket missing from the meal's server tickets is backed up and deleted, and no row keeps its uuid. |
| SyncRunProofs.OtherMealPruned | src/contexts/AppContext.tsx:895-1008 | With the intended prune rule only (see Findings): a synced ticket of another meal is backed up and deleted, even though the server has it. |
| SyncRunProofs.NoPendingNoPrune | src/contexts/AppContext.tsx:1006-1013 | For either prune rule: with nothing pending and every local ticket on the server, there is no backup, no deletion and no upload failure. The run makes only the refresh request after the download, and leaves the merged table as it is. |
| SyncRunProofs.CompletedCounts | src/contexts/AppContext.tsx:963-1122 | One create request per pending ticket, in order. The failures are the unsettled ones, and the success message appears iff all settled. |
| SyncRunProofs.SyncedNotUploaded | src/contexts/AppContext.tsx:963-968 | A ticket synced before the merge is never uploaded. |
| SyncRunProofs.GateDeletesNothing | src/contexts/AppContext.tsx:1006-1013 | With the code's prune rule, for any table and any download: a completed run with nothing pending at the start writes no backup and deletes nothing. |
| SyncRunProofs.GateKeepsMissing | src/contexts/AppContext.tsx:930-1013 | With the code's prune rule, for a table with distinct ids, distinct uuids and complete rows, and a download of complete tickets without ids and without repeated uuids (see Left out): when nothing was pending, a synced ticket the meal's server tickets lack is neither backed up nor deleted, and the merge leaves it pending. |
| SyncRunProofs.NoMealRepends | src/contexts/AppContext.tsx:895-937 | For a table with distinct ids, distinct uuids and complete rows (see Left out): with no active meal, the merge re-marks every local ticket pending. |
| SyncRunProofs.BackupMissesPruned | src/contexts/AppContext.tsx:1006-1013 | The as-written prune never backs up a ticket it deletes. |
| Backup.UserCode | src/contexts/AppContext.tsx:1019-1026 | The code of the last roster entry with the ticket's user id, as a `Map` built from the roster keeps it, or "" when there is none. |
| Backup.MealName | src/contexts/AppContext.tsx:1026-1030 | The name of the first link for the ticket's meal, or "Comida no encontrada" when there is none or the name is empty. |
| Backup.CsvLineCount | src/contexts/AppContext.tsx:1013-1035 | With single-line fields, the CSV has exactly one header line plus one line per ticket. |
| Backup.RowIsOneLine | src/contexts/AppContext.tsx:1033-1035 | Each ticket's row is one line that ends with a newline. |
| Progress.Accumulated | src/contexts/AppContext.tsx:841-856 | Each stage fills its own band of the bar: it starts at the band's base and reaches its top when the stage's work is done. |
| Progress.AccumulatedInUnit | src/contexts/AppContext.tsx:841-856 | The progress stays in [0, 1] and is exactly 1 at the end of the upload. |
| Progress.AccumulatedMonotone | src/contexts/AppContext.tsx:841-856 | More work done never shows less progress within a stage. |
| Progress.StagesOrdered | src/contexts/AppContext.tsx:841-856 | A later stage never shows less than an earlier one. |
| Progress.Shown | src/contexts/AppContext.tsx:857-864 | The shown value either stays or jumps to the true value. It jumps iff it differs from the true value by 0.01 or more, or the step is the first or the last. So it never lags by 0.01 or more. |
| Progress.ShownBetween | src/contexts/AppContext.tsx:857-864 | Rising progress is shown between the old value and the true one. |
| SessionStats.LocalStats | src/contexts/AppContext.tsx:704-720 | No statistics iff the period or the meal is missing. |
| SessionStats.LocalStatsAgree | src/contexts/AppContext.tsx:704-720 | The in-memory counts agree with the store's `getTicketStats`. |
| Roster.TotalPages | src/contexts/AppContext.tsx:639 | The JavaScript ceiling of count / 300: the fewest 300-user pages that cover the count. |
| Roster.FetchFrom | src/contexts/AppContext.tsx:640-649 | Requests pages in order up to one past the page count. It throws iff some requested page threw, and then the thrower is the last request. |
| Roster.FetchCollects | src/contexts/AppContext.tsx:640-649 | The users gathered are exactly those of the pages that answered with data, in order. |
| Roster.FetchRoster | src/contexts/AppContext.tsx:636-650 | A refused count fetches nothing. An accepted count requests pages 1, 2, … in order. |
| Roster.OnePageTooMany | src/contexts/AppContext.tsx:639-641 | A count of 300 requests pages 1 and 2, and a count of 0 requests page 1. |
| Roster.SaveUsersStores | src/contexts/AppContext.tsx:651-653 | After saving, every fetched user and every user already stored is present. |
| Roster.LoadRoster | src/contexts/AppContext.tsx:630-678 | Offline or forced-local loads write nothing. The roster is the stored users if any, else the fetched ones, else the error "No se pudo cargar la nómina de usuarios". An online load into an empty table that fetches users shows exactly those users. |
| Keypad.PressKey | src/components/TicketsScreen.tsx:69-83 | "delete" clears the code. "enter" submits iff the code is non-empty. A glyph is appended only below 10 characters. |
| Keypad.TypedStaysShort | src/components/TicketsScreen.tsx:79-82 | No key sequence grows the typed code past 10 characters. |
| Keypad.TypedGlyphs | src/components/TicketsScreen.tsx:79-82 | Typing glyphs within the limit appends them in order. |
| Keypad.ScanText | src/components/TicketsScreen.tsx:201-210 | A scan of two or more words submits the second word, which is non-empty and has no spaces. Otherwise the whole text becomes the code. |
| Keypad.ScanSubmitsToken | src/components/TicketsScreen.tsx:201-210 | A submitted scan token is non-empty and no longer than the scanned text. |
| Keypad.ScanOfOneToken | src/components/TicketsScreen.tsx:201-210 | A single token is kept as the code, not submitted. |
| Keypad.ScanCanExceedLimit | src/components/TicketsScreen.tsx:201-210 | An 11-character scan becomes the code, past the keypad's limit. |
| Text.WordsKeepText | src/components/TicketsScreen.tsx:202 | The words of the split, laid end to end, are exactly the non-space characters of the text, in order. So the split loses and reorders no text; that words are separated at every run of white space is not stated. |
| Text.TrimEmptyIffAllSpace | src/contexts/AppContext.tsx:1205 | A code trims to empty iff it is all whitespace. |

## Left out

- **The SQLite engine itself.** `initDatabase`, `getDatabase` and the SQL
  text are not modelled; each query is modelled by its effect on the
  rows.
- **The ORDER BY of `getTickets`.** `getTickets` reads rows newest first;
  the model keeps the table's row order instead.
- **The other store reads.** `getTickets`, `getUnsyncedTickets`, the other
  getters and the period clean-up queries are not modelled.
- **The server API, sockets, network detection and AsyncStorage.** Their
  answers are parameters: the `Server` record, `online` and `lastSync`.
- **Time and date handling.** dayjs formatting and parsing and the
  timezone are not modelled; the day string, the ISO stamp and the time of
  day are inputs. The CSV date column is a `stamp` function. A sync run
  resolves the active meal once, from one time of day. The code calls
  `getCurrentMeal` afresh for each downloaded ticket, so a run that
  crosses a meal boundary can filter by two meals; the model does not
  cover that.
- **UUIDv5 hashing.** The hash is an arbitrary function of name and
  namespace. Only the name it is given is modelled.
- **The file system and sharing.** Writing and sharing the CSV file, and
  their permission flows, are not modelled. A failure there does not stop
  the prune in the code either.
- **React-side effects.** State updates, timers, speech, haptics and the
  `isSyncing` flag are not modelled, and neither are concurrent runs.
- **Progress: rounding.** Progress is exact `real` arithmetic. The
  percentage rounding of the on-screen text is not modelled.
- **SyncEngine.DeleteAll: delete failures.** It does not model a delete
  that throws: the model's delete cannot fail. So delete failures never
  add to the failure count that `syncTickets` reports.
- **Retry.WithRetry: error identity.** It reports the last attempt's error
  as an abstract value rather than the thrown object.
- MergeOutcome (`SyncProofs.MergeOutcome`): stated only for a sound table and a clean
  download. A sound table has valid ids, distinct uuids and complete rows.
  A clean download is free of ids and of repeated uuids, and its tickets
  are complete: non-zero user and meal ids and a non-empty uuid. In the
  code, a downloaded ticket without a uuid is skipped by the save loop,
  and one without a user or meal id fails the save and so the run. Tables with a
  repeated uuid do arise (see `Issuance.SameDayTwoPeriodsShareUuid`). For
  them the code's `Map` keeps one row per uuid, and only that row is
  overlaid or marked pending. The prune step then deletes every row with
  that uuid, a pending row whose upload failed included. `getTickets` reads newest first, so the code's `Map` keeps the
  oldest such row; in the model's row order it would keep the newest.
  These cases are not proved.
- MergeMarks (`SyncProofs.MergeMarks`): restricted to a sound table and a clean download,
  for the same reason as `SyncProofs.MergeOutcome`.
- GateKeepsMissing (`SyncRunProofs.GateKeepsMissing`): the "stays pending"
  half is restricted to a sound table and a clean download, for the same
  reason as `SyncProofs.MergeOutcome`. The "deletes nothing" half holds
  for every table and download (`SyncRunProofs.GateDeletesNothing`).
- NoMealRepends (`SyncRunProofs.NoMealRepends`): restricted to a sound table,
  for the same reason as `SyncProofs.MergeOutcome`.
- **The mid-run refresh.** `handleGetTickets`, as called inside
  `syncTickets`, is modelled only as a request in the trace, for the
  reason given above.

## Findings

| source | as written | input that shows it | evidently intended | confidence | as-written member | corrected member |
|---|---|---|---|---|---|---|
| src/contexts/AppContext.tsx:1006-1013 | The backup written before the prune holds the pending tickets (`filter(t => t.sync_pending)`). The prune deletes the synced tickets the server lacks, and only when that backup is non-empty. | Local tickets: A, synced and absent from the server; B, pending. The backup is [B], and A is deleted without ever being backed up. Without B, A is not deleted at all (SyncRunProofs.GateDeletesNothing); for a sound table and a clean download it also stays marked pending again (SyncRunProofs.GateKeepsMissing). | The comment and the share dialog title ("Respaldo de tickets sincronizados") say the backup is of the synced tickets about to be deleted. The gate then tests that backup, so they are deleted whenever there are any. | medium, not executed | SyncRunProofs.BackupMissesPruned (about SyncEngine.PruneStep) | SyncEngine.PruneStepIntended |

=== FILE: backup.dfy ===
/** The CSV text step 6 of `syncTickets` writes for the tickets it backs up
    (src/contexts/AppContext.tsx): a header line, then one line per ticket
    with the roster code of its user, the name of its meal and its creation
    time. Formatting the time (dayjs) is a parameter; where the file goes
    is left out. */
module Backup {
  import opened Wrappers
  import opened Records
  import opened Seqs
  import opened Text

  const Header := "Codigo,Comida,Fecha\n"
  const MissingMeal := "Comida no encontrada"

  predicate HasUser(u: User, userId: int) {
    u.userId == userId
  }

  /** `userMap.get(id)?.code || ""`: the map is built from the roster in
      order, so the last entry with the id wins. */
  function UserCode(roster: seq<User>, userId: int): (r: string)
    ensures (forall i :: 0 <= i < |roster| ==> !HasUser(roster[i], userId)) ==> r == ""
    ensures forall k :: LastWith(roster, k, userId) ==> r == roster[k].code
    ensures r == "" || exists k :: 0 <= k < |roster| && r == roster[k].code
  {
    match FindLast(roster, (u: User) => HasUser(u, userId))
    case None => ""
    case Some(u) =>
      var k0 :| 0 <= k0 < |roster| && roster[k0] == u && HasUser(roster[k0], userId)
                && forall j :: k0 < j < |roster| ==> !HasUser(roster[j], userId);
      assert forall k :: LastWith(roster, k, userId) ==> k == k0;
      u.code
  }

  /** `k` is the roster's last entry for the user. */
  predicate LastWith(roster: seq<User>, k: int, userId: int) {
    0 <= k < |roster| && HasUser(roster[k], userId) && forall j :: k < j < |roster| ==> !HasUser(roster[j], userId)
  }

  predicate Serves(l: PeriodMeal, mealId: int) {
    l.mealId == mealId
  }

  /** The first link of the period for the ticket's meal, its meal's name,
      or "Comida no encontrada" when there is none or the name is empty. */
  function MealName(period: Period, mealId: int): (r: string)
    ensures r != ""
    ensures (forall i :: 0 <= i < |period.links| ==> !Serves(period.links[i], mealId)) ==> r == MissingMeal
    ensures forall k :: FirstWith(period.links, k, mealId) ==> r == NameOr(period.links[k].meal.name)
    ensures r == MissingMeal || exists k :: 0 <= k < |period.links| && r == period.links[k].meal.name
  {
    match Find(period.links, (l: PeriodMeal) => Serves(l, mealId))
    case None => MissingMeal
    case Some(l) =>
      var k0 :| 0 <= k0 < |period.links| && period.links[k0] == l && Serves(period.links[k0], mealId)
                && forall j :: 0 <= j < k0 ==> !Serves(period.links[j], mealId);
      assert forall k :: FirstWith(period.links, k, mealId) ==> k == k0;
      NameOr(l.meal.name)
  }

  /** `k` is the period's first link for the meal. */
  predicate FirstWith(links: seq<PeriodMeal>, k: int, mealId: int) {
    0 <= k < |links| && Serves(links[k], mealId) && forall j :: 0 <= j < k ==> !Serves(links[j], mealId)
  }

  /** `name || "Comida no encontrada"`. */
  function NameOr(name: string): (r: string)
    ensures r != [] && (r == name || r == MissingMeal)
  {
    if name == "" then MissingMeal else name
  }

  function Quoted(s: string): string {
    "\"" + s + "\""
  }

  /** One ticket's line. */
  function Row(roster: seq<User>, period: Period, stamp: string -> string, t: Ticket): string {
    Quoted(UserCode(roster, t.userId)) + "," + Quoted(MealName(period, t.mealId)) + "," + Quoted(stamp(t.createdAt)) + "\n"
  }

  /** The lines of the tickets, in order. */
  function Lines(roster: seq<User>, period: Period, stamp: string -> string, ts: seq<Ticket>): (r: seq<string>)
    ensures |r| == |ts| && forall i :: 0 <= i < |ts| ==> r[i] == Row(roster, period, stamp, ts[i])
  {
    seq(|ts|, i requires 0 <= i < |ts| => Row(roster, period, stamp, ts[i]))
  }

  /** The lines joined, as `+=` builds them. */
  function Concat(parts: seq<string>): string
    decreases |parts|
  {
    if parts == [] then "" else Concat(parts[..|parts| - 1]) + parts[|parts| - 1]
  }

  /** The file contents. */
  function Csv(roster: seq<User>, period: Period, stamp: string -> string, ts: seq<Ticket>): string {
    Header + Concat(Lines(roster, period, stamp, ts))
  }

  /** The text of the roster codes, meal names and formatted times is free
      of line breaks. */
  predicate SingleLineFields(roster: seq<User>, period: Period, stamp: string -> string, ts: seq<Ticket>) {
    && (forall i :: 0 <= i < |roster| ==> Occurrences(roster[i].code, '\n') == 0)
    && (forall i :: 0 <= i < |period.links| ==> Occurrences(period.links[i].meal.name, '\n') == 0)
    && (forall i :: 0 <= i < |ts| ==> Occurrences(stamp(ts[i].createdAt), '\n') == 0)
  }

  lemma {:induction false} NoOccurrences(s: string, c: char)
    requires forall i :: 0 <= i < |s| ==> s[i] != c
    ensures Occurrences(s, c) == 0
  {
    if s != [] {
      assert forall i :: 0 <= i < |s[1..]| ==> s[1..][i] == s[i + 1];
      NoOccurrences(s[1..], c);
    }
  }

  lemma QuotedOccurrences(s: string)
    ensures Occurrences(Quoted(s), '\n') == Occurrences(s, '\n')
  {
    OccurrencesAppend("\"", s, '\n');
    OccurrencesAppend("\"" + s, "\"", '\n');
  }

  lemma UserCodeOneLine(roster: seq<User>, userId: int)
    requires forall i :: 0 <= i < |roster| ==> Occurrences(roster[i].code, '\n') == 0
    ensures Occurrences(UserCode(roster, userId), '\n') == 0
  {
    var r := UserCode(roster, userId);
    if r != "" {
      var k :| 0 <= k < |roster| && r == roster[k].code;
    }
  }

  lemma MealNameOneLine(period: Period, mealId: int)
    requires forall i :: 0 <= i < |period.links| ==> Occurrences(period.links[i].meal.name, '\n') == 0
    ensures Occurrences(MealName(period, mealId), '\n') == 0
  {
    var r := MealName(period, mealId);
    if r == MissingMeal {
      NoOccurrences(MissingMeal, '\n');
    } else {
      var k :| 0 <= k < |period.links| && r == period.links[k].meal.name;
    }
  }

  /** A ticket's line holds exactly one line break, at its end. */
  lemma RowIsOneLine(roster: seq<User>, period: Period, stamp: string -> string, t: Ticket)
    requires Occurrences(stamp(t.createdAt), '\n') == 0
    requires forall i :: 0 <= i < |roster| ==> Occurrences(roster[i].code, '\n') == 0
    requires forall i :: 0 <= i < |period.links| ==> Occurrences(period.links[i].meal.name, '\n') == 0
    ensures Occurrences(Row(roster, period, stamp, t), '\n') == 1
    ensures Row(roster, period, stamp, t)[|Row(roster, period, stamp, t)| - 1] == '\n'
  {
    UserCodeOneLine(roster, t.userId);
    MealNameOneLine(period, t.mealId);
    JoinIsOneLine(UserCode(roster, t.userId), MealName(period, t.mealId), stamp(t.createdAt));
  }

  lemma JoinIsOneLine(x: string, y: string, z: string)
    requires Occurrences(x, '\n') == 0 && Occurrences(y, '\n') == 0 && Occurrences(z, '\n') == 0
    ensures Occurrences(Quoted(x) + "," + Quoted(y) + "," + Quoted(z) + "\n", '\n') == 1
  {
    QuotedOccurrences(x);
    QuotedOccurrences(y);
    QuotedOccurrences(z);
    var a := Quoted(x) + ",";
    OccurrencesAppend(Quoted(x), ",", '\n');
    var b := a + Quoted(y);
    OccurrencesAppend(a, Quoted(y), '\n');
    var c := b + ",";
    OccurrencesAppend(b, ",", '\n');
    var d := c + Quoted(z);
    OccurrencesAppend(c, Quoted(z), '\n');
    OccurrencesAppend(d, "\n", '\n');
  }

  /** The backup has one line per ticket after the header. */
  lemma CsvLineCount(roster: seq<User>, period: Period, stamp: string -> string, ts: seq<Ticket>)
    requires SingleLineFields(roster, period, stamp, ts)
    ensures Occurrences(Csv(roster, period, stamp, ts), '\n') == |ts| + 1
  {
    var lines := Lines(roster, period, stamp, ts);
    forall i | 0 <= i < |lines| ensures Occurrences(lines[i], '\n') == 1 {
      RowIsOneLine(roster, period, stamp, ts[i]);
    }
    ConcatLineCount(lines);
    OccurrencesAppend(Header, Concat(lines), '\n');
    HeaderIsOneLine();
  }

  lemma HeaderIsOneLine()
    ensures Occurrences(Header, '\n') == 1
  {
    NoOccurrences("Codigo,Comida,Fecha", '\n');
    OccurrencesAppend("Codigo,Comida,Fecha", "\n", '\n');
    assert Header == "Codigo,Comida,Fecha" + "\n";
  }

  lemma {:induction false} ConcatLineCount(lines: seq<string>)
    requires forall i :: 0 <= i < |lines| ==> Occurrences(lines[i], '\n') == 1
    ensures Occurrences(Concat(lines), '\n') == |lines|
    decreases |lines|
  {
    if lines != [] {
      var init := lines[..|lines| - 1];
      assert forall i :: 0 <= i < |init| ==> init[i] == lines[i];
      ConcatLineCount(init);
      OccurrencesAppend(Concat(init), lines[|lines| - 1], '\n');
    }
  }

  /** Backing up two lists in turn writes their lines one after the other. */
  lemma {:induction false} ConcatAppend(a: seq<string>, b: seq<string>)
    ensures Concat(a + b) == Concat(a) + Concat(b)
    decreases |b|
  {
    if b == [] {
      assert a + b == a;
    } else {
      var init := b[..|b| - 1];
      assert (a + b)[..|a + b| - 1] == a + init;
      ConcatAppend(a, init);
    }
  }

  lemma LinesAppend(roster: seq<User>, period: Period, stamp: string -> string, a: seq<Ticket>, b: seq<Ticket>)
    ensures Lines(roster, period, stamp, a + b) == Lines(roster, period, stamp, a) + Lines(roster, period, stamp, b)
  {
  }
}

=== FILE: catalog_store.dfy ===
/** The `periodos`, `comidas`, `comidas_periodo` and `users` tables and the
    upserts `periodoDb.savePeriodo`, `comidaDb.saveComida`,
    `comidaDb.saveComidaPeriodo` and `userDb.saveUser`, plus
    `periodoDb.getCurrentPeriodo` (src/services/database.ts). Each upsert is
    SQLite's `INSERT OR REPLACE`: every row that clashes with the new one on
    a key or UNIQUE constraint is deleted, then the new row is added. */
module CatalogStore {
  import opened Wrappers
  import opened Records
  import opened Seqs
  import opened Text

  /** `INSERT OR REPLACE`: drop the clashing rows, add the new one. */
  function Upsert<T(==)>(rows: seq<T>, row: T, clash: T -> bool): (r: seq<T>)
    requires clash(row)
    ensures row in r
    ensures forall i :: 0 <= i < |r| && clash(r[i]) ==> r[i] == row
    ensures forall i :: 0 <= i < |rows| && !clash(rows[i]) ==> rows[i] in r
    ensures forall i :: 0 <= i < |r| ==> r[i] == row || (r[i] in rows && !clash(r[i]))
    ensures Count(r, clash) == 1
  {
    var kept := Filter(rows, (x: T) => !clash(x));
    assert Count(kept, clash) == 0 by {
      CountPositive(kept, clash);
    }
    CountAppend(kept, [row], clash);
    kept + [row]
  }

  lemma {:induction false} CountAppend<T>(a: seq<T>, b: seq<T>, p: T -> bool)
    ensures Count(a + b, p) == Count(a, p) + Count(b, p)
  {
    if a == [] {
      assert a + b == b;
    } else {
      assert (a + b)[1..] == a[1..] + b;
      CountAppend(a[1..], b, p);
    }
  }

  /** An upsert keyed on `key` keeps the key unique across the table. */
  lemma UpsertKeepsKeyUnique<T, K>(rows: seq<T>, row: T, key: T -> K)
    requires DistinctBy(rows, key)
    ensures DistinctBy(Upsert(rows, row, (x: T) => key(x) == key(row)), key)
  {
    var clash := (x: T) => key(x) == key(row);
    var keep := (x: T) => !clash(x);
    FilterDistinct(rows, keep, key);
    var kept := Filter(rows, keep);
    assert Upsert(rows, row, clash) == kept + [row];
    var r := kept + [row];
    forall i, j | 0 <= i < j < |r| ensures key(r[i]) != key(r[j]) {
      if j == |kept| {
        assert r[i] == kept[i];
      } else {
        assert r[i] == kept[i] && r[j] == kept[j];
      }
    }
  }

  /** `savePeriodo`, keyed on `pre_periodo_id`. */
  function SavePeriod(rows: seq<PeriodRow>, p: PeriodRow): (r: seq<PeriodRow>)
    ensures p in r
    ensures forall i :: 0 <= i < |r| && r[i].periodId == p.periodId ==> r[i] == p
    ensures forall i :: 0 <= i < |rows| && rows[i].periodId != p.periodId ==> rows[i] in r
    ensures forall i :: 0 <= i < |r| ==> r[i] == p || r[i] in rows
  {
    Upsert(rows, p, (x: PeriodRow) => x.periodId == p.periodId)
  }

  /** `saveComida`, keyed on `pre_comida_id`. */
  function SaveMeal(rows: seq<Meal>, m: Meal): (r: seq<Meal>)
    ensures m in r
    ensures forall i :: 0 <= i < |r| && r[i].mealId == m.mealId ==> r[i] == m
    ensures forall i :: 0 <= i < |rows| && rows[i].mealId != m.mealId ==> rows[i] in r
    ensures forall i :: 0 <= i < |r| ==> r[i] == m || r[i] in rows
  {
    Upsert(rows, m, (x: Meal) => x.mealId == m.mealId)
  }

  /** The link row `saveComidaPeriodo` writes: falsy `horas_antes` and
      `maximo_persona` become 1, a falsy `subsidio` becomes "0.00". */
  function LinkWithDefaults(l: LinkRow): (r: LinkRow)
    ensures r.hoursBefore != 0 && r.maxPersons != 0 && r.subsidy != ""
    ensures l.hoursBefore == 0 ==> r.hoursBefore == 1
    ensures l.maxPersons == 0 ==> r.maxPersons == 1
    ensures l.subsidy == "" ==> r.subsidy == "0.00"
    ensures l.hoursBefore != 0 ==> r.hoursBefore == l.hoursBefore
    ensures l.maxPersons != 0 ==> r.maxPersons == l.maxPersons
    ensures l.subsidy != "" ==> r.subsidy == l.subsidy
    ensures r.(hoursBefore := l.hoursBefore, maxPersons := l.maxPersons, subsidy := l.subsidy) == l
  {
    l.(hoursBefore := if l.hoursBefore == 0 then 1 else l.hoursBefore,
       maxPersons := if l.maxPersons == 0 then 1 else l.maxPersons,
       subsidy := if l.subsidy == "" then "0.00" else l.subsidy)
  }

  predicate LinkClash(x: LinkRow, l: LinkRow) {
    x.linkId == l.linkId || (x.periodId == l.periodId && x.mealId == l.mealId)
  }

  /** `saveComidaPeriodo`: the table clashes on the primary key and on
      UNIQUE (pre_periodo_id, pre_comida_id), so both keys end with one row. */
  function SaveLink(rows: seq<LinkRow>, l: LinkRow): (r: seq<LinkRow>)
    ensures LinkWithDefaults(l) in r
    ensures forall i :: 0 <= i < |r| && r[i].linkId == l.linkId ==> r[i] == LinkWithDefaults(l)
    ensures forall i :: 0 <= i < |r| && r[i].periodId == l.periodId && r[i].mealId == l.mealId ==> r[i] == LinkWithDefaults(l)
    ensures forall i :: 0 <= i < |rows| && !LinkClash(rows[i], l) ==> rows[i] in r
    ensures forall i :: 0 <= i < |r| ==> r[i] == LinkWithDefaults(l) || r[i] in rows
  {
    var row := LinkWithDefaults(l);
    Upsert(rows, row, (x: LinkRow) => LinkClash(x, row))
  }

  datatype UserTable = UserTable(rows: seq<User>, lastId: nat)

  /** `saveUser`: no id is given, so the row gets the next AUTOINCREMENT id
      and replaces any row with the same UNIQUE `pre_usuario_id`. */
  function SaveUser(table: UserTable, u: User): (r: UserTable)
    ensures r.lastId == table.lastId + 1
    ensures u.(id := r.lastId) in r.rows
    ensures forall i :: 0 <= i < |r.rows| && r.rows[i].userId == u.userId ==> r.rows[i] == u.(id := r.lastId)
    ensures forall i :: 0 <= i < |table.rows| && table.rows[i].userId != u.userId ==> table.rows[i] in r.rows
    ensures forall i :: 0 <= i < |r.rows| ==> r.rows[i] == u.(id := r.lastId) || r.rows[i] in table.rows
  {
    var row := u.(id := table.lastId + 1);
    UserTable(Upsert(table.rows, row, (x: User) => x.userId == u.userId), table.lastId + 1)
  }

  /** The WHERE clause of `getCurrentPeriodo`: active, and the `YYYY-MM-DD`
      texts bracket today's date as SQLite compares text. */
  predicate Current(p: PeriodRow, today: string) {
    TextLe(p.startDate, today) && TextLe(today, p.endDate) && p.estado
  }

  /** `getCurrentPeriodo`: ORDER BY pre_periodo_id DESC LIMIT 1 over the current rows. */
  function CurrentPeriod(rows: seq<PeriodRow>, today: string): (r: Option<PeriodRow>)
    ensures r.None? <==> forall i :: 0 <= i < |rows| ==> !Current(rows[i], today)
    ensures r.Some? ==> r.value in rows && Current(r.value, today)
    ensures r.Some? ==> forall i :: 0 <= i < |rows| && Current(rows[i], today) ==> rows[i].periodId <= r.value.periodId
  {
    if rows == [] then None
    else
      var rest := CurrentPeriod(rows[1..], today);
      assert forall i :: 1 <= i < |rows| ==> rows[i] == rows[1..][i - 1];
      if Current(rows[0], today) && (rest.None? || rows[0].periodId >= rest.value.periodId) then Some(rows[0])
      else rest
  }
}

=== FILE: issuance.dfy ===
/** Ticket issuance: `handleCrearTicket` and `handleSaveTicket`
    (src/contexts/AppContext.tsx). An ordered chain of checks, a roster
    lookup, the UUIDv5 name, the duplicate rule and one insert. The UUIDv5
    hash is a parameter (any deterministic function of name and namespace);
    the clock readings are parameters too. */
module Issuance {
  import opened Wrappers
  import opened Records
  import opened Seqs
  import opened Text
  import opened TicketStore

  const UuidNamespace := "1b671a64-40d5-491e-99b0-da01ff1f3341"

  /** The override codes that may be issued any number of times. */
  const SpecialCodes: set<string> := {"V001", "E001", "G001", "P001", "X001"}

  /** What issuance reads from the app state: whether start-up finished, the
      loaded period, the meal resolved when it was loaded, and the roster. */
  datatype Session = Session(initialized: bool, period: Option<Period>, currentMeal: Option<Meal>, roster: seq<User>)

  /** The clock readings one issuance takes: the `create_at` stamp, the
      `YYYYMMDD` day, `Date.now()`, and the ISO time `saveTicket` would default to. */
  datatype Clock = Clock(stamp: string, day: string, millis: int, iso: string)

  datatype Outcome =
    | NotReady        // start-up has not finished
    | NoCode          // the code is empty or blank
    | NoPeriod        // no period loaded
    | NoMeal          // no meal active
    | NoRoster        // the roster is empty
    | UnknownCode     // no roster entry has this code
    | AlreadyServed   // the soft success for a repeat
    | Issued(id: int) // a new row was written
    | SaveFailed      // saveTicket rejected the ticket

  datatype Issue = Issue(outcome: Outcome, table: TicketTable)

  /** The UUIDv5 name: `{user}-{meal}-{YYYYMMDD}`, with `-{millis}` for override codes. */
  function UuidName(userId: int, mealId: int, day: string, special: bool, millis: int): string {
    IntToString(userId) + "-" + IntToString(mealId) + "-" + day
    + (if special then "-" + IntToString(millis) else "")
  }

  function HasCode(code: string): User -> bool {
    (u: User) => u.code == code
  }

  /** The ticket `handleCrearTicket` builds, as `handleSaveTicket` saves it. */
  function NewTicket(user: User, meal: Meal, period: Period, code: string, clock: Clock,
                     uuidv5: (string, string) -> string): Ticket
  {
    Ticket(0, 0, user.userId, meal.mealId, period.periodId, clock.stamp,
           uuidv5(UuidName(user.userId, meal.mealId, clock.day, code in SpecialCodes, clock.millis), UuidNamespace),
           true)
  }

  /** Checks that pass before the roster lookup can succeed. */
  predicate Admitted(s: Session, code: string) {
    s.initialized && Trim(code) != [] && s.period.Some? && s.currentMeal.Some? && s.roster != []
  }

  function CreateTicket(s: Session, table: TicketTable, code: string, clock: Clock,
                        uuidv5: (string, string) -> string): (r: Issue)
    ensures !r.outcome.Issued? ==> r.table == table
    ensures !s.initialized ==> r.outcome == NotReady
    ensures s.initialized && Trim(code) == [] ==> r.outcome == NoCode
    ensures s.initialized && Trim(code) != [] && s.period.None? ==> r.outcome == NoPeriod
    ensures s.initialized && Trim(code) != [] && s.period.Some? && s.currentMeal.None? ==> r.outcome == NoMeal
    ensures s.initialized && Trim(code) != [] && s.period.Some? && s.currentMeal.Some? && s.roster == [] ==> r.outcome == NoRoster
    ensures Admitted(s, code) ==>
      (r.outcome == UnknownCode <==> forall i :: 0 <= i < |s.roster| ==> s.roster[i].code != code)
    ensures r.outcome.AlreadyServed? ==>
      Admitted(s, code) && code !in SpecialCodes
      && exists i :: 0 <= i < |s.roster| && s.roster[i].code == code
                     && TicketExists(table, s.roster[i].userId, s.currentMeal.value.mealId, s.period.value.periodId)
    ensures r.outcome.Issued? ==>
      && Admitted(s, code)
      && |r.table.rows| == |table.rows| + 1
      && r.table.rows[..|table.rows|] == table.rows
      && r.table.rows[|table.rows|].id == r.outcome.id
      && r.table.rows[|table.rows|].pending
      && r.table.rows[|table.rows|].mealId == s.currentMeal.value.mealId
      && r.table.rows[|table.rows|].periodId == s.period.value.periodId
      && (exists i :: 0 <= i < |s.roster| && s.roster[i].code == code
                      && r.table.rows[|table.rows|].userId == s.roster[i].userId)
    // Once the first roster entry with the code is found, the duplicate rule
    // decides both ways, and an incomplete ticket is the only save failure.
    ensures Admitted(s, code) && Find(s.roster, HasCode(code)).Some? ==>
      var u := Find(s.roster, HasCode(code)).value;
      var t := NewTicket(u, s.currentMeal.value, s.period.value, code, clock, uuidv5);
      var repeat := code !in SpecialCodes && TicketExists(table, u.userId, t.mealId, t.periodId);
      && (r.outcome == AlreadyServed <==> repeat)
      && (r.outcome == SaveFailed <==> !repeat && !Complete(t))
      && (r.outcome.Issued? <==> !repeat && Complete(t))
      && (r.outcome.Issued? ==>
            && r.outcome.id == table.lastId + 1
            && r.table.lastId == table.lastId + 1
            && r.table.rows == table.rows + [Stored(t, clock.iso).(id := r.outcome.id)])
  {
    if !s.initialized then Issue(NotReady, table)
    else if Trim(code) == [] then Issue(NoCode, table)
    else if s.period.None? then Issue(NoPeriod, table)
    else if s.currentMeal.None? then Issue(NoMeal, table)
    else
      var user := Find(s.roster, HasCode(code));
      if s.roster == [] then Issue(NoRoster, table)
      else if user.None? then Issue(UnknownCode, table)
      else
        var t := NewTicket(user.value, s.currentMeal.value, s.period.value, code, clock, uuidv5);
        if TicketExists(table, t.userId, t.mealId, t.periodId) && code !in SpecialCodes then
          Issue(AlreadyServed, table)
        else
          match SaveTicket(table, t, clock.iso)
          case Success((saved, table')) => Issue(Issued(saved.id), table')
          case Failure(_) => Issue(SaveFailed, table)
  }

  /** The ticket id of a regular code depends on user, meal and day only:
      neither the period nor the time of day enters the name. */
  lemma RegularUuidIgnoresTime(userId: int, mealId: int, day: string, ms1: int, ms2: int)
    ensures UuidName(userId, mealId, day, false, ms1) == UuidName(userId, mealId, day, false, ms2)
  {
  }

  /** Override codes get the millisecond suffix, so two issues at different
      instants are hashed from different names. */
  lemma {:induction false} SpecialNamesDiffer(userId: int, mealId: int, day: string, ms1: int, ms2: int)
    requires ms1 != ms2
    ensures UuidName(userId, mealId, day, true, ms1) != UuidName(userId, mealId, day, true, ms2)
  {
    var head := IntToString(userId) + "-" + IntToString(mealId) + "-" + day;
    if UuidName(userId, mealId, day, true, ms1) == UuidName(userId, mealId, day, true, ms2) {
      SameSuffix(head, "-" + IntToString(ms1), "-" + IntToString(ms2));
      SameSuffix("-", IntToString(ms1), IntToString(ms2));
      IntToStringInjective(ms1, ms2);
    }
  }

  lemma SameSuffix(p: string, a: string, b: string)
    requires p + a == p + b
    ensures a == b
  {
    assert (p + a)[|p|..] == a;
    assert (p + b)[|p|..] == b;
  }

  /** Issuing a regular code a second time for the same session writes
      nothing and reports the soft success. */
  lemma {:induction false} RegularCodeIssuedOnce(s: Session, table: TicketTable, code: string,
                                                 c1: Clock, c2: Clock, uuidv5: (string, string) -> string)
    requires code !in SpecialCodes
    requires CreateTicket(s, table, code, c1, uuidv5).outcome.Issued?
    ensures var second := CreateTicket(s, CreateTicket(s, table, code, c1, uuidv5).table, code, c2, uuidv5);
            second.outcome == AlreadyServed && second.table == CreateTicket(s, table, code, c1, uuidv5).table
  {
    var first := CreateTicket(s, table, code, c1, uuidv5);
    var user := Find(s.roster, HasCode(code));
    var t := NewTicket(user.value, s.currentMeal.value, s.period.value, code, c1, uuidv5);
    var row := first.table.rows[|table.rows|];
    assert row.userId == t.userId && row.mealId == t.mealId && row.periodId == t.periodId;
    assert SameTriple(first.table.rows[|table.rows|], t.userId, t.mealId, t.periodId);
  }

  /** Override codes are never refused as duplicates: with a complete ticket,
      every issue appends one row. */
  lemma SpecialCodeAlwaysAppends(s: Session, table: TicketTable, code: string, clock: Clock,
                                 uuidv5: (string, string) -> string)
    requires code in SpecialCodes && Admitted(s, code)
    requires exists i :: 0 <= i < |s.roster| && s.roster[i].code == code
    requires forall i :: 0 <= i < |s.roster| ==> s.roster[i].userId != 0
    requires s.currentMeal.value.mealId != 0
    requires forall name, ns :: uuidv5(name, ns) != ""
    ensures CreateTicket(s, table, code, clock, uuidv5).outcome.Issued?
    ensures |CreateTicket(s, table, code, clock, uuidv5).table.rows| == |table.rows| + 1
  {
    var user := Find(s.roster, HasCode(code));
    assert user.Some?;
  }

  /** The period is not part of the name, so a regular code issued on the
      same day in two periods yields two rows with one uuid: the table does
      not keep uuids unique. */
  lemma {:induction false} SameDayTwoPeriodsShareUuid(s: Session, table: TicketTable, code: string, other: Period,
                                                      c1: Clock, c2: Clock, uuidv5: (string, string) -> string)
    requires code !in SpecialCodes && c1.day == c2.day
    requires CreateTicket(s, table, code, c1, uuidv5).outcome.Issued?
    requires CreateTicket(s.(period := Some(other)), CreateTicket(s, table, code, c1, uuidv5).table, code, c2, uuidv5).outcome.Issued?
    ensures var first := CreateTicket(s, table, code, c1, uuidv5).table;
            var second := CreateTicket(s.(period := Some(other)), first, code, c2, uuidv5).table;
            && |second.rows| == |table.rows| + 2
            && second.rows[|table.rows|] == first.rows[|table.rows|]
            && second.rows[|table.rows|].uuid == second.rows[|table.rows| + 1].uuid
            && second.rows[|table.rows| + 1].periodId == other.periodId
  {
    var first := CreateTicket(s, table, code, c1, uuidv5).table;
    var user := Find(s.roster, HasCode(code));
    var t1 := NewTicket(user.value, s.currentMeal.value, s.period.value, code, c1, uuidv5);
    var t2 := NewTicket(user.value, s.currentMeal.value, other, code, c2, uuidv5);
    RegularUuidIgnoresTime(user.value.userId, s.currentMeal.value.mealId, c1.day, c1.millis, c2.millis);
    assert t1.uuid == t2.uuid;
    var second := CreateTicket(s.(period := Some(other)), first, code, c2, uuidv5).table;
    assert second.rows[..|first.rows|] == first.rows;
    assert second.rows[|table.rows|] == second.rows[..|first.rows|][|table.rows|];
  }

  /** The worked example: code "1234" belongs to user 77, meal 5 is active in
      period 9 on 2024-03-15, and user 77 has no ticket for that meal and period yet. */
  lemma IssueScenario(table: TicketTable, uuidv5: (string, string) -> string, clock: Clock)
    requires clock.day == "20240315" && clock.stamp != ""
    requires !TicketExists(table, 77, 5, 9)
    requires forall name, ns :: uuidv5(name, ns) != ""
    ensures var u := User(1, 77, "1234", "Ana", "Ruiz", "", false, false);
            var s := Session(true, Some(Period(9, [])), Some(Meal(5, "Almuerzo", 0, 0, true)), [u]);
            var r := CreateTicket(s, table, "1234", clock, uuidv5);
            && r.outcome.Issued?
            && r.table.rows[|table.rows|] ==
               Ticket(r.outcome.id, 0, 77, 5, 9, clock.stamp, uuidv5("77-5-20240315", UuidNamespace), true)
  {
    var u := User(1, 77, "1234", "Ana", "Ruiz", "", false, false);
    var meal := Meal(5, "Almuerzo", 0, 0, true);
    var s := Session(true, Some(Period(9, [])), Some(meal), [u]);
    assert IntToString(77) == "77" by {
      assert NatToString(7) == "7";
    }
    assert IntToString(5) == "5";
    assert UuidName(77, 5, "20240315", false, clock.millis) == "77-5-20240315";
    assert "1234" !in SpecialCodes;
    assert Trim("1234") == "1234" by {
      assert !IsSpace('1') && !IsSpace('4');
    }
    assert Find(s.roster, HasCode("1234")) == Some(u);
    var t := NewTicket(u, meal, Period(9, []), "1234", clock, uuidv5);
    assert t == Ticket(0, 0, 77, 5, 9, clock.stamp, uuidv5("77-5-20240315", UuidNamespace), true);
  }
}

=== FILE: keypad.dfy ===
/** The code entry of the tickets screen (src/components/TicketsScreen.tsx):
    the on-screen keypad and the barcode scanner that types into the same
    text field. A step yields the new code and, when it submits one, the
    code handed to ticket issuance. */
module Keypad {
  import opened Wrappers
  import opened Text

  /** The keypad's longest code. */
  const MaxCode := 10

  /** A keypad key: "delete", "enter", or one of the character keys
      0-9, V, P, E, G. */
  datatype Key = Delete | Enter | Glyph(c: char)

  datatype Step = Step(code: string, submitted: Option<string>)

  /** `handleKeyPress`. */
  function PressKey(code: string, key: Key): (r: Step)
    ensures key.Delete? ==> r == Step("", None)
    ensures key.Enter? ==> r.code == code && (r.submitted.Some? <==> code != []) && (r.submitted.Some? ==> r.submitted.value == code)
    ensures key.Glyph? ==> |r.code| == (if |code| < MaxCode then |code| + 1 else |code|)
    ensures key.Glyph? ==> r.submitted.None? && r.code[..|code|] == code
  {
    match key
    case Delete => Step("", None)
    case Enter => Step(code, if |code| > 0 then Some(code) else None)
    case Glyph(c) => Step(if |code| < MaxCode then code + [c] else code, None)
  }

  /** The code after a sequence of key presses. */
  function Typed(code: string, keys: seq<Key>): string
    decreases |keys|
  {
    if keys == [] then code else Typed(PressKey(code, keys[0]).code, keys[1..])
  }

  /** Keypad input never makes a code longer than ten characters. */
  lemma {:induction false} TypedStaysShort(code: string, keys: seq<Key>)
    requires |code| <= MaxCode
    ensures |Typed(code, keys)| <= MaxCode
    decreases |keys|
  {
    if keys != [] {
      TypedStaysShort(PressKey(code, keys[0]).code, keys[1..]);
    }
  }

  /** Character keys pressed on an empty code spell the first ten of them. */
  lemma {:induction false} TypedGlyphs(code: string, glyphs: string)
    requires |code| + |glyphs| <= MaxCode
    ensures Typed(code, seq(|glyphs|, i requires 0 <= i < |glyphs| => Glyph(glyphs[i]))) == code + glyphs
    decreases |glyphs|
  {
    var keys := seq(|glyphs|, i requires 0 <= i < |glyphs| => Glyph(glyphs[i]));
    if glyphs == [] {
      assert keys == [];
    } else {
      assert keys[1..] == seq(|glyphs[1..]|, i requires 0 <= i < |glyphs[1..]| => Glyph(glyphs[1..][i]));
      TypedGlyphs(code + [glyphs[0]], glyphs[1..]);
      assert code + [glyphs[0]] + glyphs[1..] == code + glyphs;
    }
  }

  /** The scanner's `onChangeText`: the trimmed text split on white space;
      a second token is submitted, otherwise the raw text becomes the code. */
  function ScanText(code: string, text: string): (r: Step)
    ensures r.submitted.Some? <==> |Words(text)| >= 2
    ensures r.submitted.Some? ==> r.submitted.value == Words(text)[1] && r.code == code
    ensures r.submitted.None? ==> r.code == text
    ensures r.submitted.Some? ==> r.submitted.value != [] && NoSpace(r.submitted.value)
  {
    var parts := Words(text);
    if |parts| >= 2 then Step(code, Some(parts[1])) else Step(text, None)
  }

  /** A submitted scan is never blank and never longer than the scanned text. */
  lemma {:induction false} ScanSubmitsToken(code: string, text: string)
    requires ScanText(code, text).submitted.Some?
    ensures 1 <= |ScanText(code, text).submitted.value| <= |text|
  {
    WordsShorter(text);
  }

  /** Every word of `s` fits in `s`, and the words together are no longer than `s`. */
  lemma {:induction false} WordsShorter(s: string)
    ensures forall i :: 0 <= i < |Words(s)| ==> |Words(s)[i]| <= |s|
    decreases |s|
  {
    if s != [] {
      if IsSpace(s[0]) {
        WordsShorter(s[1..]);
      } else {
        var n := WordLength(s);
        WordsShorter(s[n..]);
        var rest := Words(s[n..]);
        assert Words(s) == [s[..n]] + rest;
        forall i | 0 <= i < |Words(s)| ensures |Words(s)[i]| <= |s| {
          if i > 0 {
            assert Words(s)[i] == rest[i - 1];
          }
        }
      }
    }
  }

  /** A text without white space is one word. */
  lemma {:induction false} OneWord(s: string)
    requires s != [] && NoSpace(s)
    ensures Words(s) == [s]
  {
    assert !IsSpace(s[0]);
    WordLengthOfWord(s);
    assert s[|s|..] == [];
    assert s[..|s|] == s;
  }

  lemma {:induction false} WordLengthOfWord(s: string)
    requires NoSpace(s)
    ensures WordLength(s) == |s|
    decreases |s|
  {
    if s != [] {
      assert NoSpace(s[1..]) by {
        forall i | 0 <= i < |s[1..]| ensures !IsSpace(s[1..][i]) {
          assert s[1..][i] == s[i + 1];
        }
      }
      WordLengthOfWord(s[1..]);
    }
  }

  /** The ten-character bound is the keypad's only: a scan without white
      space, however long, becomes the code as it is. */
  lemma ScanOfOneToken(code: string, text: string)
    requires text != [] && NoSpace(text)
    ensures ScanText(code, text) == Step(text, None)
  {
    OneWord(text);
  }

  lemma ScanCanExceedLimit()
    ensures |ScanText("", "12345678901").code| == 11
  {
    ScanOfOneToken("", "12345678901");
  }
}

=== FILE: meal_resolver.dfy ===
/** `getCurrentMeal` (src/contexts/AppContext.tsx): the first meal of the
    period whose window today contains "now". Times are milliseconds after
    today's midnight; a window whose end is before its start ends on the
    next day. Both bounds are strict (`isAfter`, `isBefore`). */
module MealResolver {
  import opened Wrappers
  import opened Records

  const DayMs := 24 * 60 * 60 * 1000

  /** The window's end after the next-day correction. */
  function CorrectedEnd(m: Meal): (e: int)
    ensures m.startMs <= m.endMs ==> e == m.endMs
    ensures m.endMs < m.startMs ==> e == m.endMs + DayMs
  {
    if m.endMs < m.startMs then m.endMs + DayMs else m.endMs
  }

  predicate Serving(m: Meal, nowMs: int) {
    m.startMs < nowMs < CorrectedEnd(m)
  }

  function CurrentMeal(p: Period, nowMs: int): (r: Option<Meal>)
    ensures p.links == [] ==> r.None?
    ensures r.None? <==> forall i :: 0 <= i < |p.links| ==> !Serving(p.links[i].meal, nowMs)
    ensures r.Some? ==> exists k :: 0 <= k < |p.links| && p.links[k].meal == r.value && Serving(r.value, nowMs)
                                  && forall j :: 0 <= j < k ==> !Serving(p.links[j].meal, nowMs)
  {
    FirstServing(p.links, nowMs)
  }

  function FirstServing(links: seq<PeriodMeal>, nowMs: int): (r: Option<Meal>)
    ensures r.None? <==> forall i :: 0 <= i < |links| ==> !Serving(links[i].meal, nowMs)
    ensures r.Some? ==> exists k :: 0 <= k < |links| && links[k].meal == r.value && Serving(r.value, nowMs)
                                  && forall j :: 0 <= j < k ==> !Serving(links[j].meal, nowMs)
  {
    if links == [] then None
    else if Serving(links[0].meal, nowMs) then Some(links[0].meal)
    else
      var tail := links[1..];
      var r := FirstServing(tail, nowMs);
      assert forall i :: 1 <= i < |links| ==> links[i] == tail[i - 1];
      if r.Some? then
        var k :| 0 <= k < |tail| && tail[k].meal == r.value && Serving(r.value, nowMs)
                 && forall j :: 0 <= j < k ==> !Serving(tail[j].meal, nowMs);
        assert links[k + 1].meal == r.value;
        r
      else r
  }

  /** For a window that crosses midnight, "now" (a time of today) matches
      exactly when it is after the start: the early-morning tail of the
      window, which belongs to yesterday's service, never matches. */
  lemma MidnightWindowMatchesOnlyAfterStart(m: Meal, nowMs: int)
    requires m.endMs < m.startMs && 0 <= m.endMs
    requires 0 <= nowMs < DayMs
    ensures Serving(m, nowMs) <==> m.startMs < nowMs
    ensures nowMs <= m.endMs ==> !Serving(m, nowMs)
  {
  }

  /** The 08:00-09:00 window: served at 08:30, not at 07:59, not at 09:00,
      and not at 08:00 exactly either, since the start bound is strict too. */
  lemma BreakfastBoundaries()
    ensures var m := Meal(1, "Desayuno", 8 * 3600000, 9 * 3600000, true);
      && Serving(m, 8 * 3600000 + 30 * 60000)
      && !Serving(m, 7 * 3600000 + 59 * 60000)
      && !Serving(m, 9 * 3600000)
      && !Serving(m, 8 * 3600000)
  {
  }
}

=== FILE: progress.dfy ===
/** The weighted progress `syncTickets` reports (src/contexts/AppContext.tsx):
    download counts for 40%, processing for 30% and upload for 30%, and a
    new value is shown only when it moved by at least one point or a stage
    is at its start or end. Numbers are `real`; the JavaScript doubles and
    the final `Math.round` are not modelled. */
module Progress {

  datatype Stage = Download | Processing | Upload

  function Weight(s: Stage): (w: real)
    ensures 0.0 < w
  {
    match s
    case Download => 0.4
    case Processing => 0.3
    case Upload => 0.3
  }

  /** The weights of the stages before `s`. */
  function Base(s: Stage): real {
    match s
    case Download => 0.0
    case Processing => Weight(Download)
    case Upload => Weight(Download) + Weight(Processing)
  }

  function Rank(s: Stage): nat {
    match s
    case Download => 0
    case Processing => 1
    case Upload => 2
  }

  /** `updateWeightedProgress`'s accumulated value for `current` of `total`. */
  function Accumulated(s: Stage, current: int, total: int): (p: real)
    ensures total <= 0 ==> p == Base(s)
    ensures 0 <= current <= total ==> Base(s) <= p <= Base(s) + Weight(s)
    ensures 0 < total && current == total ==> p == Base(s) + Weight(s)
  {
    var stage := if total > 0 then (current as real / total as real) * Weight(s) else 0.0;
    assert 0 <= current <= total && total > 0 ==> current as real / total as real <= 1.0 by {
      if 0 <= current <= total && total > 0 {
        DivAtMostOne(current as real, total as real);
      }
    }
    Base(s) + stage
  }

  lemma DivAtMostOne(a: real, b: real)
    requires 0.0 <= a <= b && 0.0 < b
    ensures 0.0 <= a / b <= 1.0
  {
    assert a / b * b == a;
  }

  /** The reported value never leaves [0, 1] and finishes at 1. */
  lemma AccumulatedInUnit(s: Stage, current: int, total: int)
    requires 0 <= current <= total
    ensures 0.0 <= Accumulated(s, current, total) <= 1.0
    ensures s == Upload && 0 < total && current == total ==> Accumulated(s, current, total) == 1.0
  {
  }

  /** Within a stage, more work done means more progress. */
  lemma AccumulatedMonotone(s: Stage, c1: int, c2: int, total: int)
    requires 0 <= c1 <= c2 <= total
    ensures Accumulated(s, c1, total) <= Accumulated(s, c2, total)
  {
    if total > 0 {
      var t := total as real;
      assert c1 as real / t <= c2 as real / t by {
        assert c1 as real / t * t == c1 as real;
        assert c2 as real / t * t == c2 as real;
      }
    }
  }

  /** A later stage never reports less than an earlier one. */
  lemma StagesOrdered(s1: Stage, c1: int, t1: int, s2: Stage, c2: int, t2: int)
    requires Rank(s1) < Rank(s2)
    requires 0 <= c1 <= t1 && 0 <= c2 <= t2
    ensures Accumulated(s1, c1, t1) <= Accumulated(s2, c2, t2)
  {
  }

  /** The value kept after a call: the accumulated one when it moved by at
      least 0.01 or the stage is at its first or last step, else the old one. */
  function Shown(shown: real, s: Stage, current: int, total: int): (r: real)
    ensures r == shown || r == Accumulated(s, current, total)
    ensures current == 0 || current == total ==> r == Accumulated(s, current, total)
    ensures Abs(r - Accumulated(s, current, total)) < 0.01 || r == Accumulated(s, current, total)
    ensures Abs(Accumulated(s, current, total) - shown) >= 0.01 ==> r == Accumulated(s, current, total)
    ensures current != 0 && current != total && Abs(Accumulated(s, current, total) - shown) < 0.01 ==> r == shown
  {
    var acc := Accumulated(s, current, total);
    if Abs(acc - shown) >= 0.01 || current == 0 || current == total then acc else shown
  }

  function Abs(x: real): (r: real)
    ensures 0.0 <= r && (r == x || r == -x)
  {
    if x < 0.0 then -x else x
  }

  /** When progress only moves forward, so does the shown value, and it
      never runs ahead of the true one. */
  lemma ShownBetween(shown: real, s: Stage, current: int, total: int)
    requires shown <= Accumulated(s, current, total)
    ensures shown <= Shown(shown, s, current, total) <= Accumulated(s, current, total)
  {
  }
}

=== FILE: records.dfy ===
/** The records the kiosk stores and exchanges (src/types/database.ts and the
    local types of src/contexts/AppContext.tsx). Identifier columns are
    integers; JavaScript treats 0 as falsy, so 0 also stands for "absent"
    (`undefined`/`null`), which is how `x || null` stores it. Dates and
    times are carried as the strings or integers the code compares. */
module Records {

  /** A row of the `tickets` table. `id` is the local AUTOINCREMENT key (0 when
      the record has none yet), `serverId` is `pre_ticket_id` (0 for null),
      `pending` is `sync_pending`. */
  datatype Ticket = Ticket(
    id: int,
    serverId: int,
    userId: int,
    mealId: int,
    periodId: int,
    createdAt: string,
    uuid: string,
    pending: bool)

  /** A roster entry (`users` table). `userId` is `pre_usuario_id`. */
  datatype User = User(
    id: int,
    userId: int,
    code: string,
    firstName: string,
    lastName: string,
    birthDate: string,
    sync: bool,
    pending: bool)

  /** A meal (`comidas` row / `pre_comidas`), with its daily window given as
      milliseconds after midnight of `hora_inicio` and `hora_fin`. */
  datatype Meal = Meal(
    mealId: int,
    name: string,
    startMs: int,
    endMs: int,
    estado: bool)

  /** A period-meal link as stored in `comidas_periodo`. */
  datatype LinkRow = LinkRow(
    linkId: int,
    periodId: int,
    mealId: int,
    hoursBefore: int,
    maxPersons: int,
    active: bool,
    estado: bool,
    subsidy: string)

  /** A period-meal link as the app holds it: the link's meal id and the
      joined meal record (`pre_comidas`). */
  datatype PeriodMeal = PeriodMeal(mealId: int, meal: Meal)

  /** A row of the `periodos` table; dates are `YYYY-MM-DD` text. */
  datatype PeriodRow = PeriodRow(
    periodId: int,
    name: string,
    startDate: string,
    endDate: string,
    estado: bool)

  /** The period the app holds in memory, with its meal links in the order
      they were loaded. */
  datatype Period = Period(periodId: int, links: seq<PeriodMeal>)
}

=== FILE: retry.dfy ===
/** `withRetry` (src/services/database.ts): run a database operation up to
    `maxRetries` times, waiting `retryDelay * 2^(k-1)` ms after failed
    attempt k when another attempt follows, and rethrow the last error when
    every attempt failed. The operation's outcome at each attempt (including
    a failure to open the connection) is a parameter; the waits are returned
    instead of slept. */
module Retry {
  import opened Wrappers

  const DefaultMaxRetries := 2
  const DefaultRetryDelay := 100

  datatype Attempt<T> = Done(value: T) | Threw(error: string)

  /** What `withRetry` rejects with: the last attempt's error, or the generic
      "Database operation failed" when no attempt was made. */
  datatype RetryError = Thrown(message: string) | NoAttemptMade

  function Pow2(k: nat): (r: nat)
    ensures r >= 1
  {
    if k == 0 then 1 else 2 * Pow2(k - 1)
  }

  method WithRetry<T>(op: nat -> Attempt<T>, maxRetries: int, retryDelay: int)
    returns (r: Result<T, RetryError>, attempts: nat, waits: seq<int>)
    ensures maxRetries <= 0 ==> attempts == 0 && r == Failure(NoAttemptMade) && waits == []
    ensures maxRetries >= 1 ==> 1 <= attempts <= maxRetries
    ensures forall k :: 1 <= k < attempts ==> op(k).Threw?
    ensures r.Success? ==> attempts >= 1 && op(attempts) == Done(r.value)
    ensures r.Failure? && maxRetries >= 1 ==>
      attempts == maxRetries && op(attempts).Threw? && r.error == Thrown(op(attempts).error)
    ensures attempts >= 1 ==> |waits| == attempts - 1
    ensures forall i :: 0 <= i < |waits| ==> waits[i] == retryDelay * Pow2(i)
  {
    var lastError: Option<string> := None;
    var attempt := 1;
    waits := [];
    while attempt <= maxRetries
      invariant 1 <= attempt
      invariant maxRetries >= 1 ==> attempt <= maxRetries + 1
      invariant maxRetries < 1 ==> attempt == 1
      invariant forall k :: 1 <= k < attempt ==> op(k).Threw?
      invariant attempt == 1 ==> lastError.None?
      invariant attempt > 1 ==> lastError == Some(op(attempt - 1).error)
      invariant attempt <= maxRetries ==> |waits| == attempt - 1
      invariant attempt > maxRetries && attempt > 1 ==> |waits| == attempt - 2
      invariant attempt == 1 ==> waits == []
      invariant forall i :: 0 <= i < |waits| ==> waits[i] == retryDelay * Pow2(i)
      decreases maxRetries - attempt + 1
    {
      var outcome := op(attempt);
      if outcome.Done? {
        return Success(outcome.value), attempt, waits;
      }
      lastError := Some(outcome.error);
      if attempt < maxRetries {
        waits := waits + [retryDelay * Pow2(attempt - 1)];
      }
      attempt := attempt + 1;
    }
    if lastError.Some? {
      r, attempts := Failure(Thrown(lastError.value)), attempt - 1;
    } else {
      r, attempts := Failure(NoAttemptMade), 0;
    }
  }
}

=== FILE: roster.dfy ===
/** Loading the roster (`handleGetNomina`, src/contexts/AppContext.tsx):
    when online, ask the server for the number of users, fetch the pages of
    300, store every user, then read the roster back from the local table.
    Server replies are parameters. */
module Roster {
  import opened Wrappers
  import opened Records
  import opened CatalogStore

  const RosterPageSize := 300

  /** `getTotalUsers`: `{sms, data}`, or a thrown request. */
  datatype CountReply = CountReply(sms: string, data: int) | CountThrew

  /** `getAllUsers(page, 300, true)`: a truthy `data` array, a reply
      without one, or a thrown request. */
  datatype PageReply = Users(data: seq<User>) | NoData | PageThrew

  /** `Math.ceil(total / 300)`. */
  function TotalPages(total: int): (n: int)
    ensures total <= 0 ==> n <= 0
    ensures total > 0 ==> n >= 1 && (n - 1) * RosterPageSize < total <= n * RosterPageSize
  {
    -((-total) / RosterPageSize)
  }

  /** What the download collected: the users so far, the pages asked for,
      and whether a request threw (which skips storing them). */
  datatype Fetch = Fetch(users: seq<User>, requests: seq<int>, threw: bool)

  /** The loop `for (i = 0; i <= totalPages; i++)` from iteration `i`. */
  function FetchFrom(i: int, totalPages: int, page: int -> PageReply): (r: Fetch)
    requires i >= 0
    ensures !r.threw ==> |r.requests| == (if totalPages >= i then totalPages - i + 1 else 0)
    ensures forall k :: 0 <= k < |r.requests| ==> r.requests[k] == i + k + 1
    ensures forall k :: 0 <= k < |r.requests| - 1 ==> page(r.requests[k]).Users? || page(r.requests[k]).NoData?
    ensures r.threw <==> exists k :: 0 <= k < |r.requests| && page(r.requests[k]).PageThrew?
    ensures r.threw ==> r.requests != [] && page(r.requests[|r.requests| - 1]).PageThrew?
    decreases totalPages - i + 1
  {
    if i > totalPages then Fetch([], [], false)
    else if page(i + 1).PageThrew? then
      var r := Fetch([], [i + 1], true);
      assert page(r.requests[0]).PageThrew?;
      r
    else
      var rest := FetchFrom(i + 1, totalPages, page);
      var r := Fetch(PageUsers(page(i + 1)) + rest.users, [i + 1] + rest.requests, rest.threw);
      assert forall k :: 0 < k < |r.requests| ==> r.requests[k] == rest.requests[k - 1];
      assert r.threw <==> exists k :: 0 <= k < |r.requests| && page(r.requests[k]).PageThrew? by {
        if rest.threw {
          var k :| 0 <= k < |rest.requests| && page(rest.requests[k]).PageThrew?;
          assert page(r.requests[k + 1]).PageThrew?;
        }
        if exists k :: 0 <= k < |r.requests| && page(r.requests[k]).PageThrew? {
          var k :| 0 <= k < |r.requests| && page(r.requests[k]).PageThrew?;
          assert k > 0 && page(rest.requests[k - 1]).PageThrew?;
        }
      }
      r
  }

  /** `response.data` when it is there, else nothing. */
  function PageUsers(reply: PageReply): seq<User> {
    if reply.Users? then reply.data else []
  }

  /** The pages that answered: all requested ones unless the last threw. */
  function Answered(r: Fetch): seq<int> {
    if r.threw && r.requests != [] then r.requests[..|r.requests| - 1] else r.requests
  }

  /** The users a list of answered pages delivers, in page order. */
  function Delivered(requests: seq<int>, page: int -> PageReply): seq<User>
    decreases |requests|
  {
    if requests == [] then []
    else PageUsers(page(requests[0])) + Delivered(requests[1..], page)
  }

  /** The users collected are exactly those of the pages answered, in order. */
  lemma {:induction false} FetchCollects(i: int, totalPages: int, page: int -> PageReply)
    requires i >= 0
    ensures FetchFrom(i, totalPages, page).users == Delivered(Answered(FetchFrom(i, totalPages, page)), page)
    decreases totalPages - i + 1
  {
    if i <= totalPages && !page(i + 1).PageThrew? {
      FetchCollects(i + 1, totalPages, page);
      var rest := FetchFrom(i + 1, totalPages, page);
      var r := FetchFrom(i, totalPages, page);
      assert Answered(r) == [i + 1] + Answered(rest);
      assert Answered(r)[1..] == Answered(rest);
    } else if i <= totalPages {
      assert Answered(FetchFrom(i, totalPages, page)) == [];
    }
  }

  /** The server part of `handleGetNomina`. */
  function FetchRoster(count: CountReply, page: int -> PageReply): (r: Fetch)
    ensures count.CountThrew? ==> r == Fetch([], [], true)
    ensures count.CountReply? && count.sms != "ok" ==> r == Fetch([], [], false)
    ensures count.CountReply? && count.sms == "ok" && !r.threw ==>
      |r.requests| == (if TotalPages(count.data) >= 0 then TotalPages(count.data) + 1 else 0)
    ensures forall k :: 0 <= k < |r.requests| ==> r.requests[k] == k + 1
  {
    match count
    case CountThrew => Fetch([], [], true)
    case CountReply(sms, total) => if sms == "ok" then FetchFrom(0, TotalPages(total), page) else Fetch([], [], false)
  }

  /** The loop asks for one page more than the count needs: a full last
      page is followed by a request for an empty one. */
  lemma OnePageTooMany(page: int -> PageReply)
    requires forall p :: page(p).NoData?
    ensures FetchRoster(CountReply("ok", 300), page).requests == [1, 2]
    ensures FetchRoster(CountReply("ok", 0), page).requests == [1]
  {
    var r := FetchRoster(CountReply("ok", 300), page);
    assert TotalPages(300) == 1;
    assert |r.requests| == 2;
    var z := FetchRoster(CountReply("ok", 0), page);
    assert TotalPages(0) == 0;
    assert |z.requests| == 1;
  }

  /** `for (const user of users) await userDb.saveUser(user)`. */
  function SaveUsers(table: UserTable, users: seq<User>): (r: UserTable)
    decreases |users|
  {
    if users == [] then table else SaveUsers(SaveUser(table, users[0]), users[1..])
  }

  predicate Stores(table: UserTable, userId: int) {
    exists i :: 0 <= i < |table.rows| && table.rows[i].userId == userId
  }

  /** After storing, every fetched user has a row, as has every user that
      was already stored. */
  lemma {:induction false} SaveUsersStores(table: UserTable, users: seq<User>)
    ensures forall j :: 0 <= j < |users| ==> Stores(SaveUsers(table, users), users[j].userId)
    ensures forall i :: 0 <= i < |table.rows| ==> Stores(SaveUsers(table, users), table.rows[i].userId)
    decreases |users|
  {
    if users != [] {
      var next := SaveUser(table, users[0]);
      SaveUsersStores(next, users[1..]);
      var u := users[0].(id := next.lastId);
      var k :| 0 <= k < |next.rows| && next.rows[k] == u;
      assert Stores(next, users[0].userId);
      forall i | 0 <= i < |table.rows| ensures Stores(next, table.rows[i].userId) {
        if table.rows[i].userId != users[0].userId {
          var m :| 0 <= m < |next.rows| && next.rows[m] == table.rows[i];
        }
      }
      forall j | 0 <= j < |users| ensures Stores(SaveUsers(table, users), users[j].userId) {
        if j > 0 {
          assert users[j] == users[1..][j - 1];
        } else {
          var m :| 0 <= m < |next.rows| && next.rows[m].userId == users[0].userId;
        }
      }
    }
  }

  datatype Load = Load(table: UserTable, roster: Result<seq<User>, string>)

  const RosterError := "No se pudo cargar la nómina de usuarios"

  /** `handleGetNomina`: the users are stored only when no request threw;
      the roster is then the local table, or the fetched users when the
      table is empty, or an error when both are. */
  function LoadRoster(online: bool, forceLocal: bool, count: CountReply, page: int -> PageReply,
                      table: UserTable): (r: Load)
    ensures !online || forceLocal ==> r.table == table
    ensures r.roster.Failure? <==> r.table.rows == [] && (!online || forceLocal || FetchRoster(count, page).users == [])
    ensures r.roster.Failure? ==> r.roster.error == RosterError
    ensures r.table.rows != [] ==> r.roster == Success(r.table.rows)
    ensures online && !forceLocal && r.table.rows == [] && FetchRoster(count, page).users != [] ==>
      r.roster == Success(FetchRoster(count, page).users)
  {
    if online && !forceLocal then
      var f := FetchRoster(count, page);
      var stored := if f.threw then table else SaveUsers(table, f.users);
      Load(stored, if stored.rows != [] then Success(stored.rows) else if f.users != [] then Success(f.users) else Failure(RosterError))
    else
      Load(table, if table.rows != [] then Success(table.rows) else Failure(RosterError))
  }
}

=== FILE: seqs.dfy ===
/** Sequence helpers: `Array.prototype.filter`, a counting query (SQL
    `COUNT(*) ... WHERE`) and first-match search (`Array.prototype.find`). */
module Seqs {
  import opened Wrappers

  function Filter<T>(s: seq<T>, p: T -> bool): (r: seq<T>)
    ensures |r| <= |s|
    ensures forall i :: 0 <= i < |r| ==> r[i] in s && p(r[i])
    ensures forall i :: 0 <= i < |s| && p(s[i]) ==> s[i] in r
  {
    if s == [] then [] else (if p(s[0]) then [s[0]] else []) + Filter(s[1..], p)
  }

  function Count<T>(s: seq<T>, p: T -> bool): (n: nat)
    ensures n <= |s|
  {
    if s == [] then 0 else (if p(s[0]) then 1 else 0) + Count(s[1..], p)
  }

  /** The first element satisfying `p`, as `find` returns it. */
  function Find<T(==)>(s: seq<T>, p: T -> bool): (r: Option<T>)
    ensures r.None? <==> forall i :: 0 <= i < |s| ==> !p(s[i])
    ensures r.Some? ==> exists k :: 0 <= k < |s| && s[k] == r.value && p(s[k])
                                  && forall j :: 0 <= j < k ==> !p(s[j])
  {
    if s == [] then None
    else if p(s[0]) then Some(s[0])
    else
      var tail := s[1..];
      var r := Find(tail, p);
      if r.Some? then
        var k :| 0 <= k < |tail| && tail[k] == r.value && p(tail[k])
                 && forall j :: 0 <= j < k ==> !p(tail[j]);
        assert s[k + 1] == r.value && forall j :: 0 <= j < k + 1 ==> !p(s[j]);
        r
      else r
  }

  /** The last element satisfying `p`, as a `new Map(...)` built from `s` keeps it. */
  function FindLast<T(==)>(s: seq<T>, p: T -> bool): (r: Option<T>)
    ensures r.None? <==> forall i :: 0 <= i < |s| ==> !p(s[i])
    ensures r.Some? ==> exists k :: 0 <= k < |s| && s[k] == r.value && p(s[k])
                                  && forall j :: k < j < |s| ==> !p(s[j])
  {
    if s == [] then None
    else if p(s[|s| - 1]) then Some(s[|s| - 1])
    else
      var init := s[..|s| - 1];
      var r := FindLast(init, p);
      if r.Some? then
        var k :| 0 <= k < |init| && init[k] == r.value && p(init[k])
                 && forall j :: k < j < |init| ==> !p(init[j]);
        assert s[k] == r.value && forall j :: k < j < |s| ==> !p(s[j]);
        r
      else r
  }

  lemma {:induction false} CountIsFilterLength<T>(s: seq<T>, p: T -> bool)
    ensures Count(s, p) == |Filter(s, p)|
  {
    if s != [] {
      CountIsFilterLength(s[1..], p);
    }
  }

  /** A count is positive exactly when some element qualifies. */
  lemma {:induction false} CountPositive<T>(s: seq<T>, p: T -> bool)
    ensures Count(s, p) > 0 <==> exists i :: 0 <= i < |s| && p(s[i])
  {
    if s != [] {
      CountPositive(s[1..], p);
      if p(s[0]) {
      } else if Count(s, p) > 0 {
        var i :| 0 <= i < |s[1..]| && p(s[1..][i]);
        assert p(s[i + 1]);
      } else {
        forall i | 0 <= i < |s| ensures !p(s[i]) {
          if i > 0 {
            assert s[i] == s[1..][i - 1];
          }
        }
      }
    }
  }

  /** Splitting the qualifying elements by a second predicate splits the count. */
  lemma {:induction false} CountSplit<T>(s: seq<T>, p: T -> bool, q: T -> bool, pq: T -> bool, pnq: T -> bool)
    requires forall x :: pq(x) == (p(x) && q(x))
    requires forall x :: pnq(x) == (p(x) && !q(x))
    ensures Count(s, p) == Count(s, pq) + Count(s, pnq)
  {
    if s != [] {
      CountSplit(s[1..], p, q, pq, pnq);
    }
  }

  /** Every element either satisfies `p` or does not. */
  lemma {:induction false} CountComplement<T>(s: seq<T>, p: T -> bool, np: T -> bool)
    requires forall x :: np(x) == !p(x)
    ensures Count(s, p) + Count(s, np) == |s|
  {
    if s != [] {
      CountComplement(s[1..], p, np);
    }
  }

  /** Filtering twice keeps what passes both tests. */
  lemma {:induction false} FilterTwice<T>(s: seq<T>, p: T -> bool, q: T -> bool, pq: T -> bool)
    requires forall x :: pq(x) == (p(x) && q(x))
    ensures Filter(Filter(s, p), q) == Filter(s, pq)
  {
    if s != [] {
      FilterTwice(s[1..], p, q, pq);
      var fp := Filter(s, p);
      if p(s[0]) {
        assert fp == [s[0]] + Filter(s[1..], p);
        assert fp[0] == s[0] && fp[1..] == Filter(s[1..], p);
        assert Filter(fp, q) == (if q(s[0]) then [s[0]] else []) + Filter(fp[1..], q);
      } else {
        assert fp == Filter(s[1..], p);
      }
    }
  }

  /** Nothing qualifies, nothing is kept. */
  lemma {:induction false} FilterNone<T>(s: seq<T>, p: T -> bool)
    requires forall i :: 0 <= i < |s| ==> !p(s[i])
    ensures Filter(s, p) == []
  {
    if s != [] {
      assert forall i :: 0 <= i < |s[1..]| ==> s[1..][i] == s[i + 1];
      FilterNone(s[1..], p);
    }
  }

  /** Element-wise `Filter`: the kept elements keep their relative order. */
  lemma {:induction false} FilterAppend<T>(a: seq<T>, b: seq<T>, p: T -> bool)
    ensures Filter(a + b, p) == Filter(a, p) + Filter(b, p)
  {
    if a == [] {
      assert a + b == b;
    } else {
      assert (a + b)[1..] == a[1..] + b;
      FilterAppend(a[1..], b, p);
    }
  }

  /** Keys that are pairwise distinct stay distinct in any filtered copy. */
  predicate DistinctBy<T, K(==)>(s: seq<T>, key: T -> K) {
    forall i, j :: 0 <= i < j < |s| ==> key(s[i]) != key(s[j])
  }

  lemma {:induction false} FilterDistinct<T, K>(s: seq<T>, p: T -> bool, key: T -> K)
    requires DistinctBy(s, key)
    ensures DistinctBy(Filter(s, p), key)
  {
    if s != [] {
      assert DistinctBy(s[1..], key) by {
        forall i, j | 0 <= i < j < |s[1..]| ensures key(s[1..][i]) != key(s[1..][j]) {
          assert s[1..][i] == s[i + 1] && s[1..][j] == s[j + 1];
        }
      }
      FilterDistinct(s[1..], p, key);
      var rest := Filter(s[1..], p);
      if p(s[0]) {
        var r := [s[0]] + rest;
        forall i, j | 0 <= i < j < |r| ensures key(r[i]) != key(r[j]) {
          if i == 0 {
            assert r[j] == rest[j - 1] && r[j] in s[1..];
            var k :| 0 <= k < |s[1..]| && s[1..][k] == r[j];
            assert s[k + 1] == r[j];
          } else {
            assert r[i] == rest[i - 1] && r[j] == rest[j - 1];
          }
        }
      } else {
        assert Filter(s, p) == rest;
      }
    }
  }

  lemma DistinctCons<T, K>(x: T, rest: seq<T>, key: T -> K)
    requires DistinctBy(rest, key)
    requires forall i :: 0 <= i < |rest| ==> key(rest[i]) != key(x)
    ensures DistinctBy([x] + rest, key)
  {
    var s := [x] + rest;
    forall i, j | 0 <= i < j < |s| ensures key(s[i]) != key(s[j]) {
      assert s[j] == rest[j - 1];
      if i > 0 {
        assert s[i] == rest[i - 1];
      }
    }
  }

  /** A suffix of a sequence with distinct keys has distinct keys, none equal to the head's. */
  lemma DistinctTail<T, K>(s: seq<T>, key: T -> K)
    requires s != [] && DistinctBy(s, key)
    ensures DistinctBy(s[1..], key)
    ensures forall i :: 0 <= i < |s[1..]| ==> key(s[1..][i]) != key(s[0])
  {
    var tail := s[1..];
    forall i, j | 0 <= i < j < |tail| ensures key(tail[i]) != key(tail[j]) {
      assert tail[i] == s[i + 1] && tail[j] == s[j + 1];
    }
    forall i | 0 <= i < |tail| ensures key(tail[i]) != key(s[0]) {
      assert tail[i] == s[i + 1];
    }
  }

  lemma DistinctAppend<T, K>(a: seq<T>, b: seq<T>, key: T -> K)
    requires DistinctBy(a, key) && DistinctBy(b, key)
    requires forall i, j :: 0 <= i < |a| && 0 <= j < |b| ==> key(a[i]) != key(b[j])
    ensures DistinctBy(a + b, key)
  {
    var s := a + b;
    forall i, j | 0 <= i < j < |s| ensures key(s[i]) != key(s[j]) {
      if j < |a| {
        assert s[i] == a[i] && s[j] == a[j];
      } else if i < |a| {
        assert s[i] == a[i] && s[j] == b[j - |a|];
      } else {
        assert s[i] == b[i - |a|] && s[j] == b[j - |a|];
      }
    }
  }
}

=== FILE: stats.dfy ===
/** `updateLocalStats` (src/contexts/AppContext.tsx): the counters shown for
    the active period and meal, computed in memory from every local ticket. */
module SessionStats {
  import opened Wrappers
  import opened Records
  import opened Seqs
  import opened TicketStore

  /** No counters without a period and an active meal; otherwise the tickets
      of both, then how many of those are pending and how many synced. */
  function LocalStats(rows: seq<Ticket>, period: Option<Period>, meal: Option<Meal>): (r: Option<Stats>)
    ensures r.None? <==> period.None? || meal.None?
  {
    if period.None? || meal.None? then None
    else
      var current := Filter(rows, (t: Ticket) => InScope(t, period.value.periodId, meal.value.mealId));
      Some(Stats(|current|, |Filter(current, (t: Ticket) => t.pending)|, |Filter(current, (t: Ticket) => !t.pending)|))
  }

  /** The in-memory count agrees with `getTicketStats`' SQL count for the
      same period and meal, so both refresh paths show the same numbers. */
  lemma LocalStatsAgree(table: TicketTable, period: Period, meal: Meal)
    ensures LocalStats(table.rows, Some(period), Some(meal)) == Some(TicketStats(table, period.periodId, meal.mealId))
  {
    var scope := (t: Ticket) => InScope(t, period.periodId, meal.mealId);
    var current := Filter(table.rows, scope);
    FilterTwice(table.rows, scope, (t: Ticket) => t.pending, (x: Ticket) => InScope(x, period.periodId, meal.mealId) && x.pending);
    FilterTwice(table.rows, scope, (t: Ticket) => !t.pending, (x: Ticket) => InScope(x, period.periodId, meal.mealId) && !x.pending);
    var done := (x: Ticket) => InScope(x, period.periodId, meal.mealId) && !x.pending;
    CountIsFilterLength(table.rows, done);
    var s := TicketStats(table, period.periodId, meal.mealId);
    assert s.synced == s.total - s.pending;
    CountSplit(table.rows, scope, (x: Ticket) => x.pending,
               (x: Ticket) => InScope(x, period.periodId, meal.mealId) && x.pending, done);
    CountIsFilterLength(table.rows, scope);
    CountIsFilterLength(table.rows, (x: Ticket) => InScope(x, period.periodId, meal.mealId) && x.pending);
  }
}

=== FILE: store_retry.dfy ===
/** `ticketDb.saveTicket` as callers see it: the validation and write run
    inside `withRetry` with its defaults (src/services/database.ts). The
    operation is deterministic, so a rejected ticket is rejected on every
    attempt. */
module StoreRetry {
  import opened Wrappers
  import opened Records
  import opened TicketStore
  import opened Retry

  const IncompleteMessage := "Datos incompletos para ticket"

  /** One attempt: the write, or the error `saveTicket` throws. */
  function SaveAttempt(table: TicketTable, t: Ticket, nowIso: string): Attempt<(Saved, TicketTable)> {
    match SaveTicket(table, t, nowIso)
    case Success(v) => Done(v)
    case Failure(_) => Threw(IncompleteMessage)
  }

  method SaveTicketRetried(table: TicketTable, t: Ticket, nowIso: string)
    returns (r: Result<(Saved, TicketTable), RetryError>, attempts: nat, waits: seq<int>)
    ensures Complete(t) ==> attempts == 1 && waits == [] && r == Success(SaveTicket(table, t, nowIso).value)
    ensures !Complete(t) ==> attempts == DefaultMaxRetries && waits == [DefaultRetryDelay]
                             && r == Failure(Thrown(IncompleteMessage))
  {
    var op := (k: nat) => SaveAttempt(table, t, nowIso);
    r, attempts, waits := WithRetry(op, DefaultMaxRetries, DefaultRetryDelay);
    if Complete(t) {
      assert op(1).Done?;
      assert attempts == 1;
      assert r.Success?;
    } else {
      assert |waits| == 1 && waits[0] == DefaultRetryDelay * Pow2(0);
    }
  }
}

=== FILE: sync_engine.dfy ===
/** `syncTickets` (src/contexts/AppContext.tsx): the throttle, the offline
    guard, the paged download, the uuid-keyed merge against the tickets of
    the active meal, the upload of the tickets that were pending before the
    merge, the backup-then-prune step and the final status. Server replies,
    the clock, the connectivity flag and the period the run loads are
    parameters. */
module SyncEngine {
  import opened Wrappers
  import opened Records
  import opened Seqs
  import opened TicketStore
  import opened MealResolver
  import Text

  const ThrottleMs := 5 * 60 * 1000
  const PageSize := 600

  /** The reply to the total-count request: `success` with a count, `success`
      false, or an exception. */
  datatype CountReply = CountOk(count: nat) | CountRefused | CountThrew

  /** The reply to one page request: `sms == "ok"` with its tickets, another
      `sms`, or an exception. */
  datatype PageReply = PageOk(tickets: seq<Ticket>) | PageNotOk | PageThrew

  /** The reply to one create request, or an exception. `serverId` is
      `data.pre_ticket_id`, 0 when absent. */
  datatype UploadReply = UploadReply(sms: string, code: string, serverId: int) | UploadThrew

  /** The server calls a run makes, in order. */
  datatype Request = TotalCount | FetchPage(page: nat) | RefreshTickets | Create(uuid: string)

  /** The server as the run sees it: the count reply, the reply to each page
      number, and the reply to the i-th create request. */
  datatype Server = Server(count: CountReply, page: nat -> PageReply, upload: nat -> UploadReply)

  /** The run's other inputs: `force`, the stored last-sync time, `Date.now()`,
      `isOnline`, the period the run loads, the time of day for the meal
      resolver, and the ISO time `saveTicket` defaults `create_at` to. */
  datatype Env = Env(force: bool, lastSync: Option<int>, now: int, online: bool,
                     period: Option<Period>, timeOfDay: int, iso: string)

  datatype Status =
    | Skipped             // throttled: nothing happens
    | Offline             // the offline guard returned
    | NoPeriod            // download done, but no period to resolve a meal
    | Failed              // an exception reached the outer catch
    | Completed(failures: nat)

  /** One run's effect: status, ticket table, the stored last-sync time, the
      server calls made, the tickets written to the CSV backup (empty when no
      backup was made) and the uuids passed to `deleteTicketByUuid`. */
  datatype Run = Run(status: Status, table: TicketTable, lastSync: Option<int>,
                     requests: seq<Request>, backup: seq<Ticket>, deleted: seq<string>)

  /** A run is skipped when not forced and the last run started less than
      five minutes ago. */
  predicate Throttled(force: bool, lastSync: Option<int>, now: int) {
    !force && lastSync.Some? && now - lastSync.value < ThrottleMs
  }

  /** `Math.ceil(total / 600)`. */
  function PageCount(total: nat): (n: nat)
    ensures n * PageSize >= total
    ensures n > 0 ==> (n - 1) * PageSize < total
    ensures total == 0 <==> n == 0
  {
    (total + PageSize - 1) / PageSize
  }

  function Pages(first: nat, last: nat): (r: seq<Request>)
    ensures |r| == if last >= first then last - first + 1 else 0
    ensures forall i :: 0 <= i < |r| ==> r[i] == FetchPage(first + i)
    decreases last + 1 - first
  {
    if first > last then [] else [FetchPage(first)] + Pages(first + 1, last)
  }

  datatype Download = Download(tickets: Option<seq<Ticket>>, requests: seq<Request>)

  /** Pages `first..last`: tickets of `ok` pages are appended, other replies
      are skipped, an exception ends the download. */
  function FetchPages(page: nat -> PageReply, first: nat, last: nat): (r: Download)
    ensures r.tickets.Some? <==> forall p :: first <= p <= last ==> !page(p).PageThrew?
    ensures r.tickets.Some? ==> r.requests == Pages(first, last)
    ensures r.tickets.None? ==>
      exists k :: first <= k <= last && page(k).PageThrew? && r.requests == Pages(first, k) &&
        forall p :: first <= p < k ==> !page(p).PageThrew?
    ensures r.tickets.Some? ==> forall t :: t in r.tickets.value ==>
                                exists p :: first <= p <= last && page(p).PageOk? && t in page(p).tickets
    decreases last + 1 - first
  {
    if first > last then Download(Some([]), [])
    else
      var rest := FetchPages(page, first + 1, last);
      match page(first)
      case PageThrew => Download(None, [FetchPage(first)])
      case PageNotOk => Download(rest.tickets, [FetchPage(first)] + rest.requests)
      case PageOk(ts) =>
        Download(if rest.tickets.Some? then Some(ts + rest.tickets.value) else None,
                 [FetchPage(first)] + rest.requests)
  }

  /** The page numbers `first..last`, in order. */
  function PageRange(first: nat, last: nat): (r: seq<nat>)
    ensures |r| == if last >= first then last - first + 1 else 0
    ensures forall i :: 0 <= i < |r| ==> r[i] == first + i
  {
    if last >= first then seq(last - first + 1, i requires 0 <= i < last - first + 1 => first + i) else []
  }

  /** Every ticket of every `ok` reply among `pages`, in page order. */
  function OkTickets(page: nat -> PageReply, pages: seq<nat>): seq<Ticket> {
    if pages == [] then []
    else (if page(pages[0]).PageOk? then page(pages[0]).tickets else []) + OkTickets(page, pages[1..])
  }

  /** A download that finishes holds exactly the tickets of the `ok` pages,
      all of them, in page order. */
  lemma {:induction false} FetchGathers(page: nat -> PageReply, first: nat, last: nat)
    ensures FetchPages(page, first, last).tickets.Some? ==>
      FetchPages(page, first, last).tickets.value == OkTickets(page, PageRange(first, last))
    decreases last + 1 - first
  {
    if first <= last {
      FetchGathers(page, first + 1, last);
      var ps := PageRange(first, last);
      assert ps[0] == first;
      assert ps[1..] == PageRange(first + 1, last);
    }
  }

  /** The server tickets of the active meal; none when no meal is active. */
  function ForMeal(server: seq<Ticket>, meal: Option<Meal>): (r: seq<Ticket>)
    ensures meal.None? ==> r == []
    ensures meal.Some? ==> forall i :: 0 <= i < |r| ==> r[i] in server && r[i].mealId == meal.value.mealId
    ensures meal.Some? ==> forall i :: 0 <= i < |server| && server[i].mealId == meal.value.mealId ==> server[i] in r
  {
    if meal.None? then [] else Filter(server, (t: Ticket) => t.mealId == meal.value.mealId)
  }

  /** The uuids a ticket list carries, as a `Map`'s key set holds them. */
  function Uuids(ts: seq<Ticket>): set<string> {
    if ts == [] then {} else Uuids(ts[..|ts| - 1]) + {ts[|ts| - 1].uuid}
  }

  lemma {:induction false} UuidsHas(ts: seq<Ticket>, i: nat)
    requires i < |ts|
    ensures ts[i].uuid in Uuids(ts)
    decreases |ts|
  {
    if i < |ts| - 1 {
      UuidsHas(ts[..|ts| - 1], i);
    }
  }

  lemma {:induction false} UuidsWitness(ts: seq<Ticket>, u: string)
    requires u in Uuids(ts)
    ensures exists i :: 0 <= i < |ts| && ts[i].uuid == u
    decreases |ts|
  {
    if ts[|ts| - 1].uuid != u {
      UuidsWitness(ts[..|ts| - 1], u);
      var i :| 0 <= i < |ts| - 1 && ts[..|ts| - 1][i].uuid == u;
    }
  }


  /** `new Map(local.map(t => [t.uuid4, t]))`. */
  function LocalIndex(local: seq<Ticket>): (m: map<string, Ticket>)
    ensures m.Keys == Uuids(local)
    ensures forall j :: 0 <= j < |local| ==> local[j].uuid in m
  {
    if local == [] then map[]
    else
      var init := local[..|local| - 1];
      var m := LocalIndex(init);
      assert forall j :: 0 <= j < |init| ==> local[j] == init[j];
      m[local[|local| - 1].uuid := local[|local| - 1]]
  }

  /** Each key maps to a ticket of the list that carries it. */
  lemma {:induction false} LocalIndexFrom(local: seq<Ticket>)
    ensures forall u :: u in LocalIndex(local) ==> LocalIndex(local)[u].uuid == u && LocalIndex(local)[u] in local
  {
    if local != [] {
      var init := local[..|local| - 1];
      var last := local[|local| - 1];
      LocalIndexFrom(init);
      var m := LocalIndex(init);
      assert LocalIndex(local) == m[last.uuid := last];
      forall u | u in m ensures m[u] in local {
        var k :| 0 <= k < |init| && init[k] == m[u];
        assert local[k] == m[u];
      }
    }
  }

  /** Each uuid maps to the last ticket that carries it. */
  lemma {:induction false} LocalIndexLast(local: seq<Ticket>, j: nat)
    requires j < |local| && LastOfUuid(local, j)
    ensures LocalIndex(local)[local[j].uuid] == local[j]
  {
    var init := local[..|local| - 1];
    var last := local[|local| - 1];
    assert LocalIndex(local) == LocalIndex(init)[last.uuid := last];
    if j < |init| {
      assert local[j] == init[j];
      assert LastOfUuid(init, j) by {
        forall k | j < k < |init| ensures init[k].uuid != init[j].uuid {
          assert init[k] == local[k];
        }
      }
      LocalIndexLast(init, j);
    }
  }

  /** `local[j]` is the last ticket carrying its uuid. */
  predicate LastOfUuid(local: seq<Ticket>, j: nat)
    requires j < |local|
  {
    forall k :: j < k < |local| ==> local[k].uuid != local[j].uuid
  }

  /** The iteration order of that Map's keys: first occurrence. */
  function KeyOrder(local: seq<Ticket>): (keys: seq<string>)
    ensures forall i, j :: 0 <= i < j < |keys| ==> keys[i] != keys[j]
    ensures forall i :: 0 <= i < |keys| ==> keys[i] in Uuids(local)
    ensures forall u :: u in Uuids(local) ==> u in keys
    ensures forall j :: 0 <= j < |local| ==> local[j].uuid in keys
  {
    if local == [] then []
    else
      var init := local[..|local| - 1];
      var last := local[|local| - 1];
      var keys := KeyOrder(init);
      assert forall j :: 0 <= j < |init| ==> local[j] == init[j];
      if last.uuid in keys then keys else keys + [last.uuid]
  }

  /** `{...localTicket, ...serverTicket, sync_pending: false}`: the server's
      fields win; the local id survives unless the payload carries one. */
  function Overlay(local: Ticket, server: Ticket): Ticket {
    server.(id := if server.id != 0 then server.id else local.id, pending := false)
  }

  datatype ServerPart = ServerPart(updates: seq<Ticket>, creates: seq<Ticket>)

  /** `x` is the update step 3.1 builds from some server ticket that has a local counterpart. */
  predicate UpdateFrom(filtered: seq<Ticket>, index: map<string, Ticket>, x: Ticket) {
    exists j :: 0 <= j < |filtered| && filtered[j].uuid in index && x == Overlay(index[filtered[j].uuid], filtered[j])
  }

  /** `x` is the create step 3.1 builds from some server ticket without one. */
  predicate CreateFrom(filtered: seq<Ticket>, index: map<string, Ticket>, x: Ticket) {
    exists j :: 0 <= j < |filtered| && filtered[j].uuid !in index && x == filtered[j].(pending := false)
  }

  /** Step 3.1: each server ticket of the meal either updates its local
      counterpart or becomes a new synced ticket. */
  function FromServer(filtered: seq<Ticket>, index: map<string, Ticket>): (r: ServerPart)
    ensures |r.updates| + |r.creates| == |filtered|
    ensures forall i :: 0 <= i < |r.updates| ==> UpdateFrom(filtered, index, r.updates[i])
    ensures forall i :: 0 <= i < |r.creates| ==> CreateFrom(filtered, index, r.creates[i])
  {
    if filtered == [] then ServerPart([], [])
    else
      var s := filtered[0];
      var tail := filtered[1..];
      var rest := FromServer(tail, index);
      assert forall j :: 1 <= j < |filtered| ==> filtered[j] == tail[j - 1];
      assert forall x :: UpdateFrom(tail, index, x) ==> UpdateFrom(filtered, index, x) by {
        forall x | UpdateFrom(tail, index, x) ensures UpdateFrom(filtered, index, x) {
          var j :| 0 <= j < |tail| && tail[j].uuid in index && x == Overlay(index[tail[j].uuid], tail[j]);
          assert filtered[j + 1] == tail[j];
        }
      }
      assert forall x :: CreateFrom(tail, index, x) ==> CreateFrom(filtered, index, x) by {
        forall x | CreateFrom(tail, index, x) ensures CreateFrom(filtered, index, x) {
          var j :| 0 <= j < |tail| && tail[j].uuid !in index && x == tail[j].(pending := false);
          assert filtered[j + 1] == tail[j];
        }
      }
      if s.uuid in index then ServerPart([Overlay(index[s.uuid], s)] + rest.updates, rest.creates)
      else ServerPart(rest.updates, [s.(pending := false)] + rest.creates)
  }

  /** No server ticket of the meal is dropped: it is an update when the
      index knows its uuid and a create otherwise. */
  lemma {:induction false} FromServerCovers(filtered: seq<Ticket>, index: map<string, Ticket>, j: nat)
    requires j < |filtered|
    ensures filtered[j].uuid in index ==> Overlay(index[filtered[j].uuid], filtered[j]) in FromServer(filtered, index).updates
    ensures filtered[j].uuid !in index ==> filtered[j].(pending := false) in FromServer(filtered, index).creates
  {
    if j > 0 {
      assert filtered[1..][j - 1] == filtered[j];
      FromServerCovers(filtered[1..], index, j - 1);
    }
  }

  /** Distinct server uuids give distinct uuids on both sides of the split. */
  lemma {:induction false} FromServerDistinct(filtered: seq<Ticket>, index: map<string, Ticket>)
    requires DistinctBy(filtered, (t: Ticket) => t.uuid)
    ensures DistinctBy(FromServer(filtered, index).updates, (t: Ticket) => t.uuid)
    ensures DistinctBy(FromServer(filtered, index).creates, (t: Ticket) => t.uuid)
  {
    if filtered != [] {
      var s := filtered[0];
      var tail := filtered[1..];
      DistinctTail(filtered, (t: Ticket) => t.uuid);
      FromServerDistinct(tail, index);
      var rest := FromServer(tail, index);
      forall i | 0 <= i < |rest.updates| ensures rest.updates[i].uuid != s.uuid {
        assert UpdateFrom(tail, index, rest.updates[i]);
        var j :| 0 <= j < |tail| && tail[j].uuid in index && rest.updates[i] == Overlay(index[tail[j].uuid], tail[j]);
      }
      forall i | 0 <= i < |rest.creates| ensures rest.creates[i].uuid != s.uuid {
        assert CreateFrom(tail, index, rest.creates[i]);
        var j :| 0 <= j < |tail| && tail[j].uuid !in index && rest.creates[i] == tail[j].(pending := false);
      }
      if s.uuid in index {
        DistinctCons(Overlay(index[s.uuid], s), rest.updates, (t: Ticket) => t.uuid);
      } else {
        DistinctCons(s.(pending := false), rest.creates, (t: Ticket) => t.uuid);
      }
    }
  }

  /** `x` is the pending copy step 3.2 makes of the ticket some key maps to. */
  predicate RepeatFrom(keys: seq<string>, index: map<string, Ticket>, x: Ticket) {
    exists j :: 0 <= j < |keys| && keys[j] in index && x == index[keys[j]].(pending := true)
  }

  /** Step 3.2: each local uuid absent from the meal's server tickets is
      marked pending again. */
  function Unmatched(keys: seq<string>, index: map<string, Ticket>, serverKeys: set<string>): (r: seq<Ticket>)
    requires forall i :: 0 <= i < |keys| ==> keys[i] in index
    requires forall u :: u in index ==> index[u].uuid == u
    ensures forall i :: 0 <= i < |r| ==> r[i].pending && r[i].uuid !in serverKeys
    ensures forall i :: 0 <= i < |r| ==> RepeatFrom(keys, index, r[i])
  {
    if keys == [] then []
    else
      var tail := keys[1..];
      var rest := Unmatched(tail, index, serverKeys);
      assert forall x :: RepeatFrom(tail, index, x) ==> RepeatFrom(keys, index, x) by {
        forall x | RepeatFrom(tail, index, x) ensures RepeatFrom(keys, index, x) {
          var j :| 0 <= j < |tail| && tail[j] in index && x == index[tail[j]].(pending := true);
          assert keys[j + 1] == tail[j];
        }
      }
      if keys[0] in serverKeys then rest
      else [index[keys[0]].(pending := true)] + rest
  }

  /** Distinct keys give distinct uuids. */
  lemma {:induction false} UnmatchedDistinct(keys: seq<string>, index: map<string, Ticket>, serverKeys: set<string>)
    requires forall i :: 0 <= i < |keys| ==> keys[i] in index
    requires forall u :: u in index ==> index[u].uuid == u
    requires DistinctBy(keys, (u: string) => u)
    ensures DistinctBy(Unmatched(keys, index, serverKeys), (t: Ticket) => t.uuid)
  {
    if keys != [] {
      var tail := keys[1..];
      DistinctTail(keys, (u: string) => u);
      UnmatchedDistinct(tail, index, serverKeys);
      var rest := Unmatched(tail, index, serverKeys);
      if keys[0] !in serverKeys {
        forall i | 0 <= i < |rest| ensures rest[i].uuid != index[keys[0]].uuid {
          assert RepeatFrom(tail, index, rest[i]);
          var j :| 0 <= j < |tail| && tail[j] in index && rest[i] == index[tail[j]].(pending := true);
        }
        DistinctCons(index[keys[0]].(pending := true), rest, (t: Ticket) => t.uuid);
      }
    }
  }

  /** Every local uuid absent from the server keys yields its pending copy. */
  lemma {:induction false} UnmatchedCovers(keys: seq<string>, index: map<string, Ticket>, serverKeys: set<string>, j: nat)
    requires forall i :: 0 <= i < |keys| ==> keys[i] in index
    requires forall u :: u in index ==> index[u].uuid == u
    requires j < |keys| && keys[j] !in serverKeys
    ensures index[keys[j]].(pending := true) in Unmatched(keys, index, serverKeys)
  {
    if j > 0 {
      assert keys[1..][j - 1] == keys[j];
      UnmatchedCovers(keys[1..], index, serverKeys, j - 1);
    }
  }

  datatype Saving = Saving(table: TicketTable, ok: bool)

  /** Step 4: save each ticket in turn, skipping those without a uuid; a
      rejected save throws, ending the loop with the earlier saves kept. */
  function SaveAll(table: TicketTable, ts: seq<Ticket>, iso: string): (r: Saving)
    ensures r.ok <==> forall i :: 0 <= i < |ts| && ts[i].uuid != "" ==> Complete(ts[i])
    ensures Valid(table) ==> Valid(r.table)
    decreases |ts|
  {
    if ts == [] then Saving(table, true)
    else if ts[0].uuid == "" then
      var r := SaveAll(table, ts[1..], iso);
      assert forall i :: 1 <= i < |ts| ==> ts[i] == ts[1..][i - 1];
      r
    else
      match SaveTicket(table, ts[0], iso)
      case Failure(_) => Saving(table, false)
      case Success((_, table')) =>
        var r := SaveAll(table', ts[1..], iso);
        assert forall i :: 1 <= i < |ts| ==> ts[i] == ts[1..][i - 1];
        r
  }

  /** The tickets step 4 saves: updates, then the unmatched locals, then creates. */
  function MergePlan(local: seq<Ticket>, filtered: seq<Ticket>): seq<Ticket> {
    LocalIndexFrom(local);
    var index := LocalIndex(local);
    var part := FromServer(filtered, index);
    part.updates + Unmatched(KeyOrder(local), index, Uuids(filtered)) + part.creates
  }

  /** A reply that settles the ticket: `sms == "ok"` or the per-user meal limit. */
  predicate Resolves(reply: UploadReply) {
    reply.UploadReply? && (reply.sms == "ok" || reply.code == "limitcomidauser")
  }

  /** The ticket as step 5 re-saves it after a settling reply. */
  function Synced(t: Ticket, reply: UploadReply): Ticket
    requires reply.UploadReply?
  {
    t.(pending := false, serverId := reply.serverId)
  }

  /** The reply settles the ticket and the re-save passes validation. */
  predicate Settles(reply: UploadReply, t: Ticket) {
    Resolves(reply) && Complete(t)
  }

  datatype Uploading = Uploading(table: TicketTable, failed: seq<Ticket>, requests: seq<Request>)

  /** Step 5: one create request per ticket, in order; a settling reply saves
      the ticket as synced with the returned id, anything else (or a
      rejected save) lands in the failed list and the loop goes on. */
  function UploadFrom(table: TicketTable, pending: seq<Ticket>, i: nat, upload: nat -> UploadReply, iso: string): (r: Uploading)
    requires i <= |pending|
    ensures |r.requests| == |pending| - i
    ensures forall k :: 0 <= k < |r.requests| ==> r.requests[k] == Create(pending[i + k].uuid)
    ensures forall k :: 0 <= k < |r.failed| ==> exists j :: i <= j < |pending| && pending[j] == r.failed[k]
    ensures forall j :: i <= j < |pending| && !Settles(upload(j), pending[j]) ==> pending[j] in r.failed
    ensures |r.failed| == |pending| - i - CountSettled(pending, i, upload)
    ensures Valid(table) ==> Valid(r.table)
    decreases |pending| - i
  {
    if i == |pending| then Uploading(table, [], [])
    else
      var t := pending[i];
      var reply := upload(i);
      if Resolves(reply) then
        match SaveTicket(table, Synced(t, reply), iso)
        case Success((_, table')) =>
          var r := UploadFrom(table', pending, i + 1, upload, iso);
          Uploading(r.table, r.failed, [Create(t.uuid)] + r.requests)
        case Failure(_) =>
          var r := UploadFrom(table, pending, i + 1, upload, iso);
          Uploading(r.table, [t] + r.failed, [Create(t.uuid)] + r.requests)
      else
        var r := UploadFrom(table, pending, i + 1, upload, iso);
        Uploading(r.table, [t] + r.failed, [Create(t.uuid)] + r.requests)
  }

  /** How many of `pending[i..]` get a settling reply and pass validation. */
  function CountSettled(pending: seq<Ticket>, i: nat, upload: nat -> UploadReply): (n: nat)
    requires i <= |pending|
    ensures n <= |pending| - i
    decreases |pending| - i
  {
    if i == |pending| then 0
    else (if Settles(upload(i), pending[i]) then 1 else 0) + CountSettled(pending, i + 1, upload)
  }

  /** Step 6: delete every given uuid in turn. */
  function DeleteAll(table: TicketTable, uuids: seq<string>): (r: TicketTable)
    ensures forall i, k :: 0 <= i < |uuids| && 0 <= k < |r.rows| && uuids[i] != "" ==> r.rows[k].uuid != uuids[i]
    ensures forall k :: 0 <= k < |r.rows| ==> r.rows[k] in table.rows
    ensures forall k :: 0 <= k < |table.rows| && table.rows[k].uuid !in uuids ==> table.rows[k] in r.rows
    ensures Valid(table) ==> Valid(r)
    decreases |uuids|
  {
    if uuids == [] then table
    else
      var r := DeleteAll(DeleteTicketByUuid(table, uuids[0]), uuids[1..]);
      assert forall i :: 1 <= i < |uuids| ==> uuids[i] == uuids[1..][i - 1];
      r
  }

  function UuidList(ts: seq<Ticket>): (r: seq<string>)
    ensures |r| == |ts| && forall i :: 0 <= i < |ts| ==> r[i] == ts[i].uuid
  {
    seq(|ts|, i requires 0 <= i < |ts| => ts[i].uuid)
  }

  /** The pre-merge tickets the prune deletes: synced ones whose uuid the
      meal's server tickets do not contain. */
  function PruneSet(local: seq<Ticket>, serverKeys: set<string>): seq<Ticket> {
    Filter(local, (t: Ticket) => !t.pending && t.uuid !in serverKeys)
  }

  /** The pre-merge tickets the CSV backup holds: the pending ones. */
  function BackupSet(local: seq<Ticket>): seq<Ticket> {
    Filter(local, (t: Ticket) => t.pending)
  }

  /** Step 6's two lists: the tickets written to the CSV backup and the
      uuids then deleted. */
  datatype Prune = Prune(backup: seq<Ticket>, deleted: seq<string>)

  /** Step 6 as the code does it: the backup holds the pre-merge pending
      tickets and, only when there is one, the pre-merge synced tickets the
      meal's server tickets lack are deleted. */
  function PruneStep(local: seq<Ticket>, serverKeys: set<string>): (r: Prune)
    ensures forall i :: 0 <= i < |r.backup| ==> r.backup[i] in local && r.backup[i].pending
    ensures (exists t :: t in local && t.pending) <==> r.backup != []
    ensures r.backup == [] ==> r.deleted == []
    ensures forall i :: 0 <= i < |r.deleted| ==> DoomedUuid(r.deleted[i], local, serverKeys)
    ensures r.backup != [] ==> forall t :: t in local && !t.pending && t.uuid !in serverKeys ==> t.uuid in r.deleted
    ensures forall t :: t in local && t.pending ==> t in r.backup
  {
    var pending := BackupSet(local);
    var deleted := UuidList(PruneSet(local, serverKeys));
    AnyPending(local);
    PruneSetUuids(local, serverKeys);
    DeletedAreDoomed(local, serverKeys);
    assert forall i :: 0 <= i < |pending| ==> pending[i] in local && pending[i].pending;
    if pending == [] then Prune([], []) else Prune(pending, deleted)
  }

  /** Every uuid of the prune list belongs to a synced ticket the server lacks. */
  lemma DeletedAreDoomed(local: seq<Ticket>, serverKeys: set<string>)
    ensures forall i :: 0 <= i < |UuidList(PruneSet(local, serverKeys))| ==>
      DoomedUuid(UuidList(PruneSet(local, serverKeys))[i], local, serverKeys)
  {
    var synced := PruneSet(local, serverKeys);
    var deleted := UuidList(synced);
    PruneSetUuids(local, serverKeys);
    forall i | 0 <= i < |deleted| ensures DoomedUuid(deleted[i], local, serverKeys) {
      assert Doomed(synced[i], local, serverKeys) && synced[i].uuid == deleted[i];
    }
  }

  lemma AnyPending(local: seq<Ticket>)
    ensures (exists t :: t in local && t.pending) <==> BackupSet(local) != []
  {
    if exists t :: t in local && t.pending {
      var t :| t in local && t.pending;
      var k :| 0 <= k < |local| && local[k] == t;
      assert t in BackupSet(local);
    }
    if BackupSet(local) != [] {
      assert BackupSet(local)[0] in local && BackupSet(local)[0].pending;
    }
  }

  /** The uuids of the prune set are those of the synced tickets the server lacks. */
  lemma PruneSetUuids(local: seq<Ticket>, serverKeys: set<string>)
    ensures forall t :: Doomed(t, local, serverKeys) ==> t.uuid in UuidList(PruneSet(local, serverKeys))
    ensures forall i :: 0 <= i < |PruneSet(local, serverKeys)| ==> Doomed(PruneSet(local, serverKeys)[i], local, serverKeys)
  {
    var synced := PruneSet(local, serverKeys);
    var deleted := UuidList(synced);
    forall t | Doomed(t, local, serverKeys) ensures t.uuid in deleted {
      var j :| 0 <= j < |local| && local[j] == t;
      assert t in synced;
      var k :| 0 <= k < |synced| && synced[k] == t;
      assert deleted[k] == t.uuid;
    }
  }

  /** A pre-merge ticket the prune targets: synced, and missing from the
      meal's server tickets. */
  predicate Doomed(t: Ticket, local: seq<Ticket>, serverKeys: set<string>) {
    t in local && !t.pending && t.uuid !in serverKeys
  }

  /** `u` is the uuid of a synced ticket the server lacks. */
  ghost predicate DoomedUuid(u: string, local: seq<Ticket>, serverKeys: set<string>) {
    exists t :: Doomed(t, local, serverKeys) && t.uuid == u
  }

  /** Step 6 as its comments and the dialog title describe it: the tickets
      about to be deleted are the ones backed up. */
  function PruneStepIntended(local: seq<Ticket>, serverKeys: set<string>): (r: Prune)
    ensures forall i :: 0 <= i < |r.deleted| ==> exists j :: 0 <= j < |r.backup| && r.backup[j].uuid == r.deleted[i]
    ensures forall t :: t in local && !t.pending && t.uuid !in serverKeys ==> t in r.backup && t.uuid in r.deleted
    ensures forall i :: 0 <= i < |r.backup| ==> r.backup[i] in local && !r.backup[i].pending && r.backup[i].uuid !in serverKeys
  {
    var synced := PruneSet(local, serverKeys);
    var deleted := UuidList(synced);
    PruneSetUuids(local, serverKeys);
    assert forall i :: 0 <= i < |deleted| ==> synced[i].uuid == deleted[i];
    Prune(synced, deleted)
  }

  /** Which step 6 a run performs: the code's, or the one its comments describe. */
  datatype PruneRule = AsWritten | Intended

  function PruneBy(rule: PruneRule, local: seq<Ticket>, serverKeys: set<string>): Prune {
    match rule
    case AsWritten => PruneStep(local, serverKeys)
    case Intended => PruneStepIntended(local, serverKeys)
  }

  /** The final message of a completed run. */
  function StatusMessage(failures: nat): (m: string)
    ensures failures == 0 <==> m == "Sincronización completada exitosamente"
  {
    if failures == 0 then "Sincronización completada exitosamente"
    else "Sincronización completada con " + Text.IntToString(failures) + " errores"
  }

  /** Everything after the download, once a period is known. */
  function Reconcile(rule: PruneRule, env: Env, server: Server, table: TicketTable, period: Period,
                     downloaded: seq<Ticket>, requests: seq<Request>): (r: Run)
    ensures r.lastSync == Some(env.now)
    ensures |r.requests| >= |requests| && r.requests[..|requests|] == requests
    ensures r.status.Failed? || r.status.Completed?
    ensures Valid(table) ==> Valid(r.table)
  {
    var local := table.rows;
    var filtered := ForMeal(downloaded, CurrentMeal(period, env.timeOfDay));
    var serverKeys := Uuids(filtered);
    var saving := SaveAll(table, MergePlan(local, filtered), env.iso);
    if !saving.ok then Run(Failed, saving.table, Some(env.now), requests, [], [])
    else
      var pending := BackupSet(local);
      var up := UploadFrom(saving.table, pending, 0, server.upload, env.iso);
      var reqs := requests + [RefreshTickets] + up.requests;
      var prune := PruneBy(rule, local, serverKeys);
      Run(Completed(|up.failed|), DeleteAll(up.table, prune.deleted), Some(env.now), reqs, prune.backup, prune.deleted)
  }

  function SyncRun(rule: PruneRule, env: Env, server: Server, table: TicketTable): (r: Run)
    ensures r.status == Skipped <==> Throttled(env.force, env.lastSync, env.now)
    ensures r.status == Offline <==> !Throttled(env.force, env.lastSync, env.now) && !env.online
    ensures r.status in {Skipped, Offline} ==> r.table == table && r.lastSync == env.lastSync && r.requests == []
    ensures r.status !in {Skipped, Offline} ==> r.lastSync == Some(env.now) && |r.requests| > 0 && r.requests[0] == TotalCount
    ensures r.status.NoPeriod? ==> r.table == table
    ensures Valid(table) ==> Valid(r.table)
  {
    if Throttled(env.force, env.lastSync, env.now) then Run(Skipped, table, env.lastSync, [], [], [])
    else if !env.online then Run(Offline, table, env.lastSync, [], [], [])
    else
      match server.count
      case CountRefused => Run(Failed, table, Some(env.now), [TotalCount], [], [])
      case CountThrew => Run(Failed, table, Some(env.now), [TotalCount], [], [])
      case CountOk(total) =>
        var download := FetchPages(server.page, 1, PageCount(total));
        var requests := [TotalCount] + download.requests;
        if download.tickets.None? then Run(Failed, table, Some(env.now), requests, [], [])
        else if env.period.None? then Run(NoPeriod, table, Some(env.now), requests, [], [])
        else Reconcile(rule, env, server, table, env.period.value, download.tickets.value, requests)
  }
}

=== FILE: sync_proofs.dfy ===
/** What step 4 of `syncTickets` leaves in the ticket table, proved for a
    store whose uuids are distinct and a server payload of distinct,
    complete tickets without a local id. */
module SyncProofs {
  import opened Wrappers
  import opened Records
  import opened Seqs
  import opened TicketStore
  import opened SyncEngine

  /** The store state the merge analysis assumes. */
  predicate Sound(table: TicketTable) {
    && Valid(table)
    && DistinctBy(table.rows, (t: Ticket) => t.uuid)
    && (forall k :: 0 <= k < |table.rows| ==> Complete(table.rows[k]))
  }

  /** Server tickets as the merge receives them: distinct uuids, the fields
      `saveTicket` needs, no local id. */
  predicate CleanPayload(filtered: seq<Ticket>) {
    && DistinctBy(filtered, (t: Ticket) => t.uuid)
    && (forall j :: 0 <= j < |filtered| ==> filtered[j].id == 0 && Complete(filtered[j]))
  }

  /** Saving `a + b` is saving `a`, then `b` if nothing was rejected. */
  lemma {:induction false} SaveAllAppend(table: TicketTable, a: seq<Ticket>, b: seq<Ticket>, iso: string)
    ensures SaveAll(table, a + b, iso) ==
      (var ra := SaveAll(table, a, iso); if ra.ok then SaveAll(ra.table, b, iso) else ra)
    decreases |a|
  {
    if a == [] {
      assert a + b == b;
    } else {
      assert (a + b)[0] == a[0] && (a + b)[1..] == a[1..] + b;
      if a[0].uuid == "" {
        SaveAllAppend(table, a[1..], b, iso);
      } else {
        match SaveTicket(table, a[0], iso)
        case Failure(_) =>
        case Success((_, table')) =>
          SaveAllAppend(table', a[1..], b, iso);
      }
    }
  }

  /** Saving tickets that all carry distinct existing-style ids overwrites,
      row by row, with the one save aimed at that row's id. */
  lemma {:induction false} SaveUpdates(table: TicketTable, ups: seq<Ticket>, iso: string)
    requires forall i :: 0 <= i < |ups| ==> ups[i].id != 0 && Complete(ups[i])
    requires DistinctBy(ups, (t: Ticket) => t.id)
    ensures SaveAll(table, ups, iso).ok
    ensures SaveAll(table, ups, iso).table.lastId == table.lastId
    ensures |SaveAll(table, ups, iso).table.rows| == |table.rows|
    ensures forall k, j :: 0 <= k < |table.rows| && 0 <= j < |ups| && ups[j].id == table.rows[k].id ==>
      SaveAll(table, ups, iso).table.rows[k] == Stored(ups[j], iso)
    ensures forall k :: 0 <= k < |table.rows| && (forall j :: 0 <= j < |ups| ==> ups[j].id != table.rows[k].id) ==>
      SaveAll(table, ups, iso).table.rows[k] == table.rows[k]
    decreases |ups|
  {
    if ups != [] {
      var u := ups[0];
      var tail := ups[1..];
      DistinctTail(ups, (t: Ticket) => t.id);
      assert forall j :: 1 <= j < |ups| ==> ups[j] == tail[j - 1];
      var t1 := table.(rows := Overwrite(table.rows, Stored(u, iso)));
      assert SaveTicket(table, u, iso) == Success((Saved(u.id, false), t1));
      assert SaveAll(table, ups, iso) == SaveAll(t1, tail, iso);
      SaveUpdates(t1, tail, iso);
      assert forall k :: 0 <= k < |table.rows| ==> t1.rows[k].id == table.rows[k].id;
    }
  }

  /** The rows the inserts of `ins` append after AUTOINCREMENT mark `base`. */
  function Inserted(ins: seq<Ticket>, base: nat, iso: string): (r: seq<Ticket>)
    ensures |r| == |ins|
    ensures forall i :: 0 <= i < |ins| ==> r[i] == Stored(ins[i], iso).(id := base + 1 + i)
  {
    if ins == [] then []
    else
      var rest := Inserted(ins[1..], base + 1, iso);
      assert forall i :: 1 <= i < |ins| ==> ins[1..][i - 1] == ins[i];
      [Stored(ins[0], iso).(id := base + 1)] + rest
  }

  lemma AppendAssoc<T>(a: seq<T>, b: seq<T>, c: seq<T>)
    ensures (a + b) + c == a + (b + c)
  {
  }

  /** One step of the save loop on a ticket it accepts. */
  lemma SaveAllStep(table: TicketTable, ts: seq<Ticket>, iso: string)
    requires ts != [] && Complete(ts[0])
    ensures SaveTicket(table, ts[0], iso).Success?
    ensures SaveAll(table, ts, iso) == SaveAll(SaveTicket(table, ts[0], iso).value.1, ts[1..], iso)
  {
  }

  /** Saving id-less tickets appends them in order under fresh ids. */
  lemma {:induction false} SaveInserts(table: TicketTable, ins: seq<Ticket>, iso: string)
    requires forall i :: 0 <= i < |ins| ==> ins[i].id == 0 && Complete(ins[i])
    ensures SaveAll(table, ins, iso).ok
    ensures SaveAll(table, ins, iso).table.rows == table.rows + Inserted(ins, table.lastId, iso)
    ensures SaveAll(table, ins, iso).table.lastId == table.lastId + |ins|
    decreases |ins|
  {
    if ins != [] {
      var tail := ins[1..];
      assert forall j :: 0 <= j < |tail| ==> tail[j] == ins[j + 1];
      var x := Stored(ins[0], iso).(id := table.lastId + 1);
      SaveAllStep(table, ins, iso);
      var t1 := SaveTicket(table, ins[0], iso).value.1;
      assert t1.rows == table.rows + [x];
      SaveInserts(t1, tail, iso);
      var rest := Inserted(tail, t1.lastId, iso);
      assert Inserted(ins, table.lastId, iso) == [x] + rest;
      AppendAssoc(table.rows, [x], rest);
    }
  }

  /** With distinct uuids, the local index maps each row's uuid to that row. */
  lemma IndexOfDistinct(local: seq<Ticket>)
    requires DistinctBy(local, (t: Ticket) => t.uuid)
    ensures forall k :: 0 <= k < |local| ==> local[k].uuid in LocalIndex(local) && LocalIndex(local)[local[k].uuid] == local[k]
  {
    forall k | 0 <= k < |local| ensures local[k].uuid in LocalIndex(local) && LocalIndex(local)[local[k].uuid] == local[k] {
      assert LastOfUuid(local, k);
      LocalIndexLast(local, k);
    }
  }

  /** The updates step 4 saves first: the server-matched ones, then the
      unmatched locals. */
  function Updates(local: seq<Ticket>, filtered: seq<Ticket>): seq<Ticket> {
    LocalIndexFrom(local);
    var index := LocalIndex(local);
    FromServer(filtered, index).updates + Unmatched(KeyOrder(local), index, Uuids(filtered))
  }

  function Creates(local: seq<Ticket>, filtered: seq<Ticket>): seq<Ticket> {
    FromServer(filtered, LocalIndex(local)).creates
  }

  /** An update aimed at the row the index holds for its uuid. */
  predicate Keyed(index: map<string, Ticket>, e: Ticket) {
    e.uuid in index && e.id == index[e.uuid].id && Complete(e) && e.id != 0
  }

  lemma {:induction false} IndexedRow(table: TicketTable, u: string)
    requires Sound(table) && u in LocalIndex(table.rows)
    ensures LocalIndex(table.rows)[u] in table.rows
    ensures Complete(LocalIndex(table.rows)[u]) && LocalIndex(table.rows)[u].id != 0
    ensures LocalIndex(table.rows)[u].uuid == u
  {
    LocalIndexFrom(table.rows);
    var k :| 0 <= k < |table.rows| && table.rows[k] == LocalIndex(table.rows)[u];
  }

  lemma {:induction false} UpdatesKeyed(table: TicketTable, filtered: seq<Ticket>)
    requires Sound(table) && CleanPayload(filtered)
    ensures forall i :: 0 <= i < |Updates(table.rows, filtered)| ==> Keyed(LocalIndex(table.rows), Updates(table.rows, filtered)[i])
  {
    var local := table.rows;
    var index := LocalIndex(local);
    var part := FromServer(filtered, index);
    var keys := KeyOrder(local);
    LocalIndexFrom(local);
    var un := Unmatched(keys, index, Uuids(filtered));
    var ups := Updates(local, filtered);
    assert ups == part.updates + un;
    forall i | 0 <= i < |ups| ensures Keyed(index, ups[i]) {
      if i < |part.updates| {
        assert ups[i] == part.updates[i];
        assert UpdateFrom(filtered, index, part.updates[i]);
        var j :| 0 <= j < |filtered| && filtered[j].uuid in index && part.updates[i] == Overlay(index[filtered[j].uuid], filtered[j]);
        IndexedRow(table, filtered[j].uuid);
      } else {
        assert ups[i] == un[i - |part.updates|];
        assert RepeatFrom(keys, index, un[i - |part.updates|]);
        var j :| 0 <= j < |keys| && keys[j] in index && un[i - |part.updates|] == index[keys[j]].(pending := true);
        IndexedRow(table, keys[j]);
      }
    }
  }

  lemma {:induction false} UpdatesDistinctUuids(table: TicketTable, filtered: seq<Ticket>)
    requires Sound(table) && CleanPayload(filtered)
    ensures DistinctBy(Updates(table.rows, filtered), (t: Ticket) => t.uuid)
  {
    var local := table.rows;
    var index := LocalIndex(local);
    var part := FromServer(filtered, index);
    var keys := KeyOrder(local);
    LocalIndexFrom(local);
    var un := Unmatched(keys, index, Uuids(filtered));
    FromServerDistinct(filtered, index);
    assert DistinctBy(keys, (u: string) => u);
    UnmatchedDistinct(keys, index, Uuids(filtered));
    forall i, j | 0 <= i < |part.updates| && 0 <= j < |un| ensures part.updates[i].uuid != un[j].uuid {
      assert UpdateFrom(filtered, index, part.updates[i]);
      var q :| 0 <= q < |filtered| && filtered[q].uuid in index && part.updates[i] == Overlay(index[filtered[q].uuid], filtered[q]);
      UuidsHas(filtered, q);
    }
    DistinctAppend(part.updates, un, (t: Ticket) => t.uuid);
  }

  lemma ValidIdsDiffer(table: TicketTable, a: nat, b: nat)
    requires Valid(table) && a < |table.rows| && b < |table.rows| && a != b
    ensures table.rows[a].id != table.rows[b].id
  {
    if a < b {
      assert ((x: Ticket) => x.id)(table.rows[a]) != ((x: Ticket) => x.id)(table.rows[b]);
    } else {
      assert ((x: Ticket) => x.id)(table.rows[b]) != ((x: Ticket) => x.id)(table.rows[a]);
    }
  }

  /** Updates with distinct uuids, each aimed at the row the index holds for
      its uuid, have distinct ids. */
  lemma KeyedIdsDistinct(table: TicketTable, index: map<string, Ticket>, ups: seq<Ticket>)
    requires Valid(table)
    requires forall u :: u in index ==> index[u] in table.rows && index[u].uuid == u
    requires forall i :: 0 <= i < |ups| ==> Keyed(index, ups[i])
    requires DistinctBy(ups, (t: Ticket) => t.uuid)
    ensures DistinctBy(ups, (t: Ticket) => t.id)
  {
    forall i, j | 0 <= i < j < |ups| ensures ups[i].id != ups[j].id {
      assert Keyed(index, ups[i]) && Keyed(index, ups[j]);
      var x := index[ups[i].uuid];
      var y := index[ups[j].uuid];
      assert x.uuid != y.uuid;
      var a :| 0 <= a < |table.rows| && table.rows[a] == x;
      var b :| 0 <= b < |table.rows| && table.rows[b] == y;
      ValidIdsDiffer(table, a, b);
    }
  }

  lemma {:induction false} UpdatesDistinctIds(table: TicketTable, filtered: seq<Ticket>)
    requires Sound(table) && CleanPayload(filtered)
    ensures DistinctBy(Updates(table.rows, filtered), (t: Ticket) => t.id)
  {
    UpdatesKeyed(table, filtered);
    UpdatesDistinctUuids(table, filtered);
    LocalIndexFrom(table.rows);
    KeyedIdsDistinct(table, LocalIndex(table.rows), Updates(table.rows, filtered));
  }

  lemma {:induction false} UpdatesSave(table: TicketTable, filtered: seq<Ticket>, iso: string)
    requires Sound(table) && CleanPayload(filtered)
    ensures forall i :: 0 <= i < |Updates(table.rows, filtered)| ==>
      Updates(table.rows, filtered)[i].id != 0 && Complete(Updates(table.rows, filtered)[i])
    ensures DistinctBy(Updates(table.rows, filtered), (t: Ticket) => t.id)
  {
    UpdatesKeyed(table, filtered);
    UpdatesDistinctIds(table, filtered);
  }

  /** The row whose id an update carries ends up holding that update. */
  lemma UpdateLands(table: TicketTable, ups: seq<Ticket>, iso: string, k: nat, p: nat)
    requires forall i :: 0 <= i < |ups| ==> ups[i].id != 0 && Complete(ups[i])
    requires DistinctBy(ups, (t: Ticket) => t.id)
    requires k < |table.rows| && p < |ups| && ups[p].id == table.rows[k].id
    ensures |SaveAll(table, ups, iso).table.rows| == |table.rows|
    ensures SaveAll(table, ups, iso).table.rows[k] == Stored(ups[p], iso)
  {
    SaveUpdates(table, ups, iso);
  }

  /** A local row the meal's server tickets contain takes the server's fields. */
  lemma {:induction false} MatchedRow(table: TicketTable, filtered: seq<Ticket>, iso: string, k: nat, j: nat)
    requires Sound(table) && CleanPayload(filtered)
    requires k < |table.rows| && j < |filtered| && filtered[j].uuid == table.rows[k].uuid
    ensures |SaveAll(table, Updates(table.rows, filtered), iso).table.rows| == |table.rows|
    ensures SaveAll(table, Updates(table.rows, filtered), iso).table.rows[k] == Stored(Overlay(table.rows[k], filtered[j]), iso)
  {
    var local := table.rows;
    var index := LocalIndex(local);
    var part := FromServer(filtered, index);
    IndexOfDistinct(local);
    var e := Overlay(local[k], filtered[j]);
    FromServerCovers(filtered, index, j);
    assert e in part.updates;
    var p :| 0 <= p < |part.updates| && part.updates[p] == e;
    var ups := Updates(local, filtered);
    assert ups[p] == e && e.id == local[k].id;
    UpdatesSave(table, filtered, iso);
    UpdateLands(table, ups, iso, k, p);
  }

  /** A local row the meal's server tickets lack is marked pending. */
  lemma {:induction false} UnmatchedRow(table: TicketTable, filtered: seq<Ticket>, iso: string, k: nat)
    requires Sound(table) && CleanPayload(filtered)
    requires k < |table.rows| && table.rows[k].uuid !in Uuids(filtered)
    ensures |SaveAll(table, Updates(table.rows, filtered), iso).table.rows| == |table.rows|
    ensures SaveAll(table, Updates(table.rows, filtered), iso).table.rows[k] == Stored(table.rows[k].(pending := true), iso)
  {
    var local := table.rows;
    var index := LocalIndex(local);
    var ups := Updates(local, filtered);
    var part := FromServer(filtered, index);
    var keys := KeyOrder(local);
    LocalIndexFrom(local);
    var un := Unmatched(keys, index, Uuids(filtered));
    assert ups == part.updates + un;
    IndexOfDistinct(local);
    var q :| 0 <= q < |keys| && keys[q] == local[k].uuid;
    var e := local[k].(pending := true);
    UnmatchedCovers(keys, index, Uuids(filtered), q);
    assert e in un;
    var p :| 0 <= p < |un| && un[p] == e;
    assert ups[|part.updates| + p] == e && e.id == local[k].id;
    UpdatesSave(table, filtered, iso);
    UpdateLands(table, ups, iso, k, |part.updates| + p);
  }

  /** Step 4 of a run, on a sound store and a clean payload: every save is
      accepted; each local row keeps its place and id, takes the server's
      fields when the meal's server tickets carry its uuid and is marked
      pending otherwise; the server tickets without a local counterpart
      are appended, synced, under fresh ids. */
  lemma {:induction false} MergeOutcome(table: TicketTable, filtered: seq<Ticket>, iso: string)
    requires Sound(table) && CleanPayload(filtered)
    ensures SaveAll(table, MergePlan(table.rows, filtered), iso).ok
    ensures var r := SaveAll(table, MergePlan(table.rows, filtered), iso).table;
      && |r.rows| == |table.rows| + |Creates(table.rows, filtered)|
      && (forall k, j :: 0 <= k < |table.rows| && 0 <= j < |filtered| && filtered[j].uuid == table.rows[k].uuid ==>
            r.rows[k] == Stored(Overlay(table.rows[k], filtered[j]), iso))
      && (forall k :: 0 <= k < |table.rows| && table.rows[k].uuid !in Uuids(filtered) ==>
            r.rows[k] == Stored(table.rows[k].(pending := true), iso))
      && r.rows[|table.rows|..] == Inserted(Creates(table.rows, filtered), table.lastId, iso)
  {
    var local := table.rows;
    var ups := Updates(local, filtered);
    var cr := Creates(local, filtered);
    assert MergePlan(local, filtered) == ups + cr;
    SaveAllAppend(table, ups, cr, iso);
    UpdatesSave(table, filtered, iso);
    SaveUpdates(table, ups, iso);
    var t1 := SaveAll(table, ups, iso).table;
    forall i | 0 <= i < |cr| ensures cr[i].id == 0 && Complete(cr[i]) {
      assert CreateFrom(filtered, LocalIndex(local), cr[i]);
    }
    SaveInserts(t1, cr, iso);
    var r := SaveAll(table, MergePlan(local, filtered), iso).table;
    assert r.rows == t1.rows + Inserted(cr, table.lastId, iso);
    forall k, j | 0 <= k < |local| && 0 <= j < |filtered| && filtered[j].uuid == local[k].uuid
      ensures r.rows[k] == Stored(Overlay(local[k], filtered[j]), iso)
    {
      MatchedRow(table, filtered, iso, k, j);
    }
    forall k | 0 <= k < |local| && local[k].uuid !in Uuids(filtered)
      ensures r.rows[k] == Stored(local[k].(pending := true), iso)
    {
      UnmatchedRow(table, filtered, iso, k);
    }
  }

  /** After step 4: every server ticket of the active meal is stored and
      synced, and every local ticket the meal's server tickets lack is
      stored and pending again. */
  lemma {:induction false} MergeMarks(table: TicketTable, filtered: seq<Ticket>, iso: string)
    requires Sound(table) && CleanPayload(filtered)
    ensures var r := SaveAll(table, MergePlan(table.rows, filtered), iso).table;
      && (forall j :: 0 <= j < |filtered| ==>
            exists k :: 0 <= k < |r.rows| && r.rows[k].uuid == filtered[j].uuid && !r.rows[k].pending)
      && (forall k :: 0 <= k < |table.rows| && table.rows[k].uuid !in Uuids(filtered) ==>
            k < |r.rows| && r.rows[k].uuid == table.rows[k].uuid && r.rows[k].pending)
  {
    var local := table.rows;
    var r := SaveAll(table, MergePlan(local, filtered), iso).table;
    MergeOutcome(table, filtered, iso);
    forall j | 0 <= j < |filtered|
      ensures exists k :: 0 <= k < |r.rows| && r.rows[k].uuid == filtered[j].uuid && !r.rows[k].pending
    {
      if filtered[j].uuid in Uuids(local) {
        UuidsWitness(local, filtered[j].uuid);
        var k :| 0 <= k < |local| && local[k].uuid == filtered[j].uuid;
        assert r.rows[k] == Stored(Overlay(local[k], filtered[j]), iso);
      } else {
        var cr := Creates(local, filtered);
        FromServerCovers(filtered, LocalIndex(local), j);
        var c :| 0 <= c < |cr| && cr[c] == filtered[j].(pending := false);
        assert r.rows[|local|..][c] == r.rows[|local| + c];
      }
    }
  }

  /** One iteration of step 5. */
  lemma UploadStep(table: TicketTable, pending: seq<Ticket>, i: nat, upload: nat -> UploadReply, iso: string)
    requires i < |pending| && pending[i].id != 0
    ensures Settles(upload(i), pending[i]) ==>
      UploadFrom(table, pending, i, upload, iso).table ==
      UploadFrom(table.(rows := Overwrite(table.rows, Stored(Synced(pending[i], upload(i)), iso))), pending, i + 1, upload, iso).table
    ensures !Settles(upload(i), pending[i]) ==>
      UploadFrom(table, pending, i, upload, iso).table == UploadFrom(table, pending, i + 1, upload, iso).table
  {
    if Resolves(upload(i)) {
      var r := SaveTicket(table, Synced(pending[i], upload(i)), iso);
      if Complete(pending[i]) {
        assert r.value.1 == table.(rows := Overwrite(table.rows, Stored(Synced(pending[i], upload(i)), iso)));
      }
    }
  }

  /** Step 5 on a store whose pending snapshot has distinct non-zero ids:
      a ticket the server settles overwrites the row with its id, synced
      and carrying the server's id; every other row is left alone. */
  lemma {:induction false} UploadRows(table: TicketTable, pending: seq<Ticket>, i: nat, upload: nat -> UploadReply, iso: string)
    requires i <= |pending|
    requires forall j :: i <= j < |pending| ==> pending[j].id != 0
    requires forall a, b :: i <= a < b < |pending| ==> pending[a].id != pending[b].id
    ensures |UploadFrom(table, pending, i, upload, iso).table.rows| == |table.rows|
    ensures forall k, j :: 0 <= k < |table.rows| && i <= j < |pending| && pending[j].id == table.rows[k].id && Settles(upload(j), pending[j]) ==>
      UploadFrom(table, pending, i, upload, iso).table.rows[k] == Stored(Synced(pending[j], upload(j)), iso)
    ensures forall k :: 0 <= k < |table.rows| && (forall j :: i <= j < |pending| && Settles(upload(j), pending[j]) ==> pending[j].id != table.rows[k].id) ==>
      UploadFrom(table, pending, i, upload, iso).table.rows[k] == table.rows[k]
    decreases |pending| - i
  {
    if i < |pending| {
      var t := pending[i];
      if Settles(upload(i), t) {
        var t1 := table.(rows := Overwrite(table.rows, Stored(Synced(t, upload(i)), iso)));
        UploadStep(table, pending, i, upload, iso);
        UploadRows(t1, pending, i + 1, upload, iso);
        SettledRows(table, t1, UploadFrom(t1, pending, i + 1, upload, iso).table, pending, i, upload, iso);
      } else {
        UploadStep(table, pending, i, upload, iso);
        UploadRows(table, pending, i + 1, upload, iso);
      }
    }
  }

  /** The settled branch of `UploadRows`, stated over the rest of the loop's
      result `r` without unfolding the loop. */
  lemma SettledRows(table: TicketTable, t1: TicketTable, r: TicketTable, pending: seq<Ticket>, i: nat,
                    upload: nat -> UploadReply, iso: string)
    requires i < |pending| && Settles(upload(i), pending[i])
    requires forall a, b :: i <= a < b < |pending| ==> pending[a].id != pending[b].id
    requires t1 == table.(rows := Overwrite(table.rows, Stored(Synced(pending[i], upload(i)), iso)))
    requires |r.rows| == |t1.rows|
    requires forall k, j :: 0 <= k < |t1.rows| && i + 1 <= j < |pending| && pending[j].id == t1.rows[k].id && Settles(upload(j), pending[j]) ==>
      r.rows[k] == Stored(Synced(pending[j], upload(j)), iso)
    requires forall k :: 0 <= k < |t1.rows| && (forall j :: i + 1 <= j < |pending| && Settles(upload(j), pending[j]) ==> pending[j].id != t1.rows[k].id) ==>
      r.rows[k] == t1.rows[k]
    ensures forall k, j :: 0 <= k < |table.rows| && i <= j < |pending| && pending[j].id == table.rows[k].id && Settles(upload(j), pending[j]) ==>
      r.rows[k] == Stored(Synced(pending[j], upload(j)), iso)
    ensures forall k :: 0 <= k < |table.rows| && (forall j :: i <= j < |pending| && Settles(upload(j), pending[j]) ==> pending[j].id != table.rows[k].id) ==>
      r.rows[k] == table.rows[k]
  {
    assert forall k :: 0 <= k < |table.rows| ==> t1.rows[k].id == table.rows[k].id;
    forall k, j | 0 <= k < |table.rows| && i <= j < |pending| && pending[j].id == table.rows[k].id && Settles(upload(j), pending[j])
      ensures r.rows[k] == Stored(Synced(pending[j], upload(j)), iso)
    {
      if j == i {
        assert forall j' :: i + 1 <= j' < |pending| ==> pending[j'].id != t1.rows[k].id;
      }
    }
    forall k | 0 <= k < |table.rows| && (forall j :: i <= j < |pending| && Settles(upload(j), pending[j]) ==> pending[j].id != table.rows[k].id)
      ensures r.rows[k] == table.rows[k]
    {
      assert t1.rows[k] == table.rows[k];
    }
  }
}

=== FILE: sync_run_proofs.dfy ===
/** Properties of a whole `syncTickets` run: the throttle window, what the
    upload and the prune act on, the failure count and the final message. */
module SyncRunProofs {
  import opened Wrappers
  import opened Records
  import opened Seqs
  import opened TicketStore
  import opened MealResolver
  import opened SyncEngine
  import opened SyncProofs

  /** The server tickets a run merges: those of the meal serving now. */
  function MealTickets(env: Env, period: Period, downloaded: seq<Ticket>): seq<Ticket> {
    ForMeal(downloaded, CurrentMeal(period, env.timeOfDay))
  }

  /** The throttle skips a run started less than five minutes after the last
      one, and never a forced run or a first run. */
  lemma ThrottleWindow(last: int, now: int)
    ensures Throttled(false, Some(last), last + ThrottleMs - 1)
    ensures !Throttled(false, Some(last), last + ThrottleMs)
    ensures !Throttled(true, Some(last), now) && !Throttled(false, None, now)
  {
  }

  /** `Math.ceil(total / 600)` at the page boundaries. */
  lemma PageCountBoundaries()
    ensures PageCount(0) == 0 && PageCount(1) == 1 && PageCount(600) == 1 && PageCount(601) == 2
  {
  }

  /** The pieces a completed run is assembled from. */
  lemma CompletedShape(rule: PruneRule, env: Env, server: Server, table: TicketTable, period: Period,
                       downloaded: seq<Ticket>, requests: seq<Request>)
    ensures var r := Reconcile(rule, env, server, table, period, downloaded, requests);
      var saving := SaveAll(table, MergePlan(table.rows, MealTickets(env, period, downloaded)), env.iso);
      var up := UploadFrom(saving.table, BackupSet(table.rows), 0, server.upload, env.iso);
      var prune := PruneBy(rule, table.rows, Uuids(MealTickets(env, period, downloaded)));
      && (r.status.Completed? <==> saving.ok)
      && (r.status.Completed? ==>
        && r.status.failures == |up.failed|
        && r.requests == requests + [RefreshTickets] + up.requests
        && r.backup == prune.backup && r.deleted == prune.deleted
        && r.table == DeleteAll(up.table, prune.deleted))
  {
  }

  /** Without a period the run stops after downloading every page: the
      table is untouched but the requests were made and the time recorded. */
  lemma NoPeriodAfterDownload(rule: PruneRule, env: Env, server: Server, table: TicketTable, total: nat)
    requires !Throttled(env.force, env.lastSync, env.now) && env.online && env.period.None?
    requires server.count == CountOk(total)
    requires forall p :: 1 <= p <= PageCount(total) ==> !server.page(p).PageThrew?
    ensures var r := SyncRun(rule, env, server, table);
      && r.status == NoPeriod && r.table == table && r.lastSync == Some(env.now)
      && r.requests == [TotalCount] + Pages(1, PageCount(total))
  {
  }

  /** An exception from any page request fails the whole run: nothing is
      written, yet the time is recorded. */
  lemma PageThrowFails(rule: PruneRule, env: Env, server: Server, table: TicketTable, total: nat, p: nat)
    requires !Throttled(env.force, env.lastSync, env.now) && env.online
    requires server.count == CountOk(total)
    requires 1 <= p <= PageCount(total) && server.page(p).PageThrew?
    ensures var r := SyncRun(rule, env, server, table);
      && r.status == Failed && r.table == table && r.lastSync == Some(env.now)
      && r.backup == [] && r.deleted == []
  {
  }

  /** A refused or failed count request ends the run with nothing written,
      yet the `finally` block still records the time. */
  lemma CountFailureStillStamps(rule: PruneRule, env: Env, server: Server, table: TicketTable)
    requires !Throttled(env.force, env.lastSync, env.now) && env.online
    requires !server.count.CountOk?
    ensures var r := SyncRun(rule, env, server, table);
      r.status == Failed && r.table == table && r.lastSync == Some(env.now) && r.requests == [TotalCount]
  {
  }

  /** With the intended prune rule, a synced ticket whose uuid the active
      meal's server tickets lack is backed up and deleted by a completed run. */
  lemma {:induction false} PruneRemoves(env: Env, server: Server, table: TicketTable, period: Period,
                                        downloaded: seq<Ticket>, requests: seq<Request>, t: Ticket)
    requires t in table.rows && !t.pending && t.uuid != ""
    requires t.uuid !in Uuids(MealTickets(env, period, downloaded))
    ensures var r := Reconcile(Intended, env, server, table, period, downloaded, requests);
      r.status.Completed? ==> t in r.backup && t.uuid in r.deleted && forall k :: 0 <= k < |r.table.rows| ==> r.table.rows[k].uuid != t.uuid
  {
    var r := Reconcile(Intended, env, server, table, period, downloaded, requests);
    CompletedShape(Intended, env, server, table, period, downloaded, requests);
    if r.status.Completed? {
      var prune := PruneStepIntended(table.rows, Uuids(MealTickets(env, period, downloaded)));
      assert t.uuid in prune.deleted;
      var i :| 0 <= i < |prune.deleted| && prune.deleted[i] == t.uuid;
    }
  }

  /** With the intended prune rule, even a ticket of another meal that the
      server still holds is deleted: the merge only sees the active meal's
      server tickets. */
  lemma {:induction false} OtherMealPruned(env: Env, server: Server, table: TicketTable, period: Period,
                                           downloaded: seq<Ticket>, requests: seq<Request>, t: Ticket)
    requires t in table.rows && !t.pending && t.uuid != ""
    requires CurrentMeal(period, env.timeOfDay).Some? ==> t.mealId != CurrentMeal(period, env.timeOfDay).value.mealId
    requires forall i :: 0 <= i < |downloaded| && downloaded[i].uuid == t.uuid ==> downloaded[i].mealId == t.mealId
    ensures var r := Reconcile(Intended, env, server, table, period, downloaded, requests);
      r.status.Completed? ==> t in r.backup && t.uuid in r.deleted && forall k :: 0 <= k < |r.table.rows| ==> r.table.rows[k].uuid != t.uuid
  {
    var filtered := MealTickets(env, period, downloaded);
    if t.uuid in Uuids(filtered) {
      UuidsWitness(filtered, t.uuid);
      assert false;
    }
    PruneRemoves(env, server, table, period, downloaded, requests, t);
  }

  /** With nothing pending at the start and every local ticket among the
      meal's server tickets, a completed run neither backs up nor deletes
      anything, reports no failures and leaves the merged table as step 4
      wrote it. */
  lemma {:induction false} NoPendingNoPrune(rule: PruneRule, env: Env, server: Server, table: TicketTable, period: Period,
                                            downloaded: seq<Ticket>, requests: seq<Request>)
    requires forall k :: 0 <= k < |table.rows| ==> !table.rows[k].pending
    requires forall k :: 0 <= k < |table.rows| ==> table.rows[k].uuid in Uuids(MealTickets(env, period, downloaded))
    ensures var r := Reconcile(rule, env, server, table, period, downloaded, requests);
      r.status.Completed? ==>
        && r.backup == [] && r.deleted == [] && r.status.failures == 0
        && r.table == SaveAll(table, MergePlan(table.rows, MealTickets(env, period, downloaded)), env.iso).table
        && r.requests == requests + [RefreshTickets]
  {
    CompletedShape(rule, env, server, table, period, downloaded, requests);
    FilterNone(table.rows, (t: Ticket) => t.pending);
    var serverKeys := Uuids(MealTickets(env, period, downloaded));
    FilterNone(table.rows, (t: Ticket) => !t.pending && t.uuid !in serverKeys);
  }

  /** As written, a completed run with nothing pending at the start neither
      writes a backup nor deletes anything, whatever the table and the
      download hold. */
  lemma GateDeletesNothing(env: Env, server: Server, table: TicketTable, period: Period,
                           downloaded: seq<Ticket>, requests: seq<Request>)
    requires forall j :: 0 <= j < |table.rows| ==> !table.rows[j].pending
    ensures var r := Reconcile(AsWritten, env, server, table, period, downloaded, requests);
      r.status.Completed? ==> r.backup == [] && r.deleted == []
  {
    CompletedShape(AsWritten, env, server, table, period, downloaded, requests);
    FilterNone(table.rows, (t: Ticket) => t.pending);
  }

  /** As written, a run with nothing pending at the start deletes nothing:
      a synced ticket the meal's server tickets lack stays, and the merge has
      marked it pending, so the next run uploads it again. */
  lemma {:induction false} GateKeepsMissing(env: Env, server: Server, table: TicketTable, period: Period,
                                            downloaded: seq<Ticket>, requests: seq<Request>, k: nat)
    requires Sound(table) && CleanPayload(MealTickets(env, period, downloaded))
    requires forall j :: 0 <= j < |table.rows| ==> !table.rows[j].pending
    requires k < |table.rows| && table.rows[k].uuid !in Uuids(MealTickets(env, period, downloaded))
    ensures var r := Reconcile(AsWritten, env, server, table, period, downloaded, requests);
      r.status.Completed? ==>
        && r.backup == [] && r.deleted == []
        && k < |r.table.rows| && r.table.rows[k].uuid == table.rows[k].uuid && r.table.rows[k].pending
  {
    var filtered := MealTickets(env, period, downloaded);
    var r := Reconcile(AsWritten, env, server, table, period, downloaded, requests);
    CompletedShape(AsWritten, env, server, table, period, downloaded, requests);
    FilterNone(table.rows, (t: Ticket) => t.pending);
    if r.status.Completed? {
      var saving := SaveAll(table, MergePlan(table.rows, filtered), env.iso);
      MergeMarks(table, filtered, env.iso);
      var up := UploadFrom(saving.table, BackupSet(table.rows), 0, server.upload, env.iso);
      assert up.table == saving.table;
      assert r.table == up.table;
    }
  }

  /** A completed run makes one create request per ticket pending at the
      start, in order, after the refresh; its failure count is the number
      of those the server did not settle, and the message says
      "exitosamente" exactly when it settled them all. */
  lemma {:induction false} CompletedCounts(rule: PruneRule, env: Env, server: Server, table: TicketTable, period: Period,
                                           downloaded: seq<Ticket>, requests: seq<Request>)
    ensures var r := Reconcile(rule, env, server, table, period, downloaded, requests);
      var pending := BackupSet(table.rows);
      r.status.Completed? ==>
        && |r.requests| == |requests| + 1 + |pending|
        && r.requests[|requests|] == RefreshTickets
        && (forall i :: 0 <= i < |pending| ==> r.requests[|requests| + 1 + i] == Create(pending[i].uuid))
        && r.status.failures == |pending| - CountSettled(pending, 0, server.upload)
        && (StatusMessage(r.status.failures) == "Sincronización completada exitosamente" <==>
            CountSettled(pending, 0, server.upload) == |pending|)
  {
    var r := Reconcile(rule, env, server, table, period, downloaded, requests);
    CompletedShape(rule, env, server, table, period, downloaded, requests);
    if r.status.Completed? {
      var saving := SaveAll(table, MergePlan(table.rows, MealTickets(env, period, downloaded)), env.iso);
      var pending := BackupSet(table.rows);
      var up := UploadFrom(saving.table, pending, 0, server.upload, env.iso);
      CreatesAfter(requests, up.requests, pending);
    }
  }

  lemma CreatesAfter(requests: seq<Request>, creates: seq<Request>, pending: seq<Ticket>)
    requires |creates| == |pending|
    requires forall k :: 0 <= k < |creates| ==> creates[k] == Create(pending[k].uuid)
    ensures var all := requests + [RefreshTickets] + creates;
      forall i :: 0 <= i < |pending| ==> all[|requests| + 1 + i] == Create(pending[i].uuid)
  {
  }

  /** A ticket that was synced at the start is not uploaded by the run, even
      when the merge marked it pending again. */
  lemma {:induction false} SyncedNotUploaded(rule: PruneRule, env: Env, server: Server, table: TicketTable, period: Period,
                                             downloaded: seq<Ticket>, requests: seq<Request>, k: nat)
    requires DistinctBy(table.rows, (t: Ticket) => t.uuid)
    requires k < |table.rows| && !table.rows[k].pending
    ensures var r := Reconcile(rule, env, server, table, period, downloaded, requests);
      r.status.Completed? ==> forall i :: |requests| <= i < |r.requests| ==> r.requests[i] != Create(table.rows[k].uuid)
  {
    var r := Reconcile(rule, env, server, table, period, downloaded, requests);
    CompletedShape(rule, env, server, table, period, downloaded, requests);
    if r.status.Completed? {
      var saving := SaveAll(table, MergePlan(table.rows, MealTickets(env, period, downloaded)), env.iso);
      var pending := BackupSet(table.rows);
      var up := UploadFrom(saving.table, pending, 0, server.upload, env.iso);
      PendingUuidsDiffer(table.rows, k);
      NoCreateFor(requests, up.requests, pending, table.rows[k].uuid);
    }
  }

  lemma NoCreateFor(requests: seq<Request>, creates: seq<Request>, pending: seq<Ticket>, uuid: string)
    requires |creates| == |pending|
    requires forall k :: 0 <= k < |creates| ==> creates[k] == Create(pending[k].uuid)
    requires forall j :: 0 <= j < |pending| ==> pending[j].uuid != uuid
    ensures var all := requests + [RefreshTickets] + creates;
      forall i :: |requests| <= i < |all| ==> all[i] != Create(uuid)
  {
    var all := requests + [RefreshTickets] + creates;
    forall i | |requests| < i < |all| ensures all[i] != Create(uuid) {
      assert all[i] == creates[i - |requests| - 1];
    }
  }

  /** Under distinct uuids, no ticket pending at the start shares a synced ticket's uuid. */
  lemma PendingUuidsDiffer(rows: seq<Ticket>, k: nat)
    requires DistinctBy(rows, (t: Ticket) => t.uuid)
    requires k < |rows| && !rows[k].pending
    ensures forall j :: 0 <= j < |BackupSet(rows)| ==> BackupSet(rows)[j].uuid != rows[k].uuid
  {
    var pending := BackupSet(rows);
    forall j | 0 <= j < |pending| ensures pending[j].uuid != rows[k].uuid {
      var a :| 0 <= a < |rows| && rows[a] == pending[j];
      assert a != k;
      assert ((t: Ticket) => t.uuid)(rows[a]) != ((t: Ticket) => t.uuid)(rows[k]) by {
        if a < k {} else {}
      }
    }
  }

  /** With no meal serving now, the merge re-marks every local ticket pending. */
  lemma {:induction false} NoMealRepends(table: TicketTable, downloaded: seq<Ticket>, iso: string)
    requires Sound(table)
    ensures var r := SaveAll(table, MergePlan(table.rows, ForMeal(downloaded, None)), iso).table;
      forall k :: 0 <= k < |table.rows| ==> k < |r.rows| && r.rows[k].uuid == table.rows[k].uuid && r.rows[k].pending
  {
    assert ForMeal(downloaded, None) == [];
    assert Uuids([]) == {};
    MergeMarks(table, [], iso);
  }

  /** As written, a ticket step 6 deletes is never in its backup: the
      backup holds the pending tickets, the deletion the synced ones. */
  lemma BackupMissesPruned(local: seq<Ticket>, serverKeys: set<string>, t: Ticket)
    requires t in local && !t.pending && t.uuid !in serverKeys
    requires exists x :: x in local && x.pending
    ensures t.uuid in PruneStep(local, serverKeys).deleted
    ensures t !in PruneStep(local, serverKeys).backup
  {
  }
}

=== FILE: text.dfy ===
/** String helpers shared by the model: JavaScript whitespace, `trim`,
    splitting on runs of whitespace, decimal rendering of integers and the
    byte-wise text ordering SQLite uses to compare `TEXT` columns. */
module Text {

  /** The characters JavaScript's `\s` and `String.prototype.trim` treat as
      white space (line terminators included). */
  predicate IsSpace(c: char) {
    c == ' ' || c == '\t' || c == '\n' || c == '\r' || c == '\U{B}' || c == '\U{C}'
    || c == '\U{A0}' || c == '\U{1680}' || ('\U{2000}' <= c <= '\U{200A}')
    || c == '\U{2028}' || c == '\U{2029}' || c == '\U{202F}' || c == '\U{205F}'
    || c == '\U{3000}' || c == '\U{FEFF}'
  }

  predicate NoSpace(s: string) {
    forall i :: 0 <= i < |s| ==> !IsSpace(s[i])
  }

  predicate AllSpace(s: string) {
    forall i :: 0 <= i < |s| ==> IsSpace(s[i])
  }

  function TrimStart(s: string): (r: string)
    ensures |r| <= |s| && r == s[|s| - |r|..]
    ensures AllSpace(s[..|s| - |r|])
    ensures r == [] || !IsSpace(r[0])
  {
    if |s| > 0 && IsSpace(s[0]) then
      var r := TrimStart(s[1..]);
      assert s[..|s| - |r|] == [s[0]] + s[1..][..|s| - 1 - |r|];
      r
    else s
  }

  function TrimEnd(s: string): (r: string)
    ensures |r| <= |s| && r == s[..|r|]
    ensures AllSpace(s[|r|..])
    ensures r == [] || !IsSpace(r[|r| - 1])
  {
    if |s| > 0 && IsSpace(s[|s| - 1]) then
      var r := TrimEnd(s[..|s| - 1]);
      assert s[|r|..] == s[..|s| - 1][|r|..] + [s[|s| - 1]];
      r
    else s
  }

  /** `s.trim()`. */
  function Trim(s: string): string {
    TrimEnd(TrimStart(s))
  }

  /** `s.trim() === ""` holds exactly when every character is white space. */
  lemma {:induction false} TrimEmptyIffAllSpace(s: string)
    ensures Trim(s) == [] <==> AllSpace(s)
  {
    var a := TrimStart(s);
    if Trim(s) == [] {
      assert AllSpace(a[0..]);
      assert a[0..] == a;
      assert a == [];
      assert s[..|s| - |a|] == s;
    } else {
      var t := Trim(s);
      assert !IsSpace(t[0]);
      assert t[0] == a[0];
      assert a[0] == s[|s| - |a|];
    }
  }

  /** Length of the leading run of non-space characters. */
  function WordLength(s: string): (n: nat)
    ensures n <= |s| && NoSpace(s[..n])
    ensures n < |s| ==> IsSpace(s[n])
    ensures s != [] && !IsSpace(s[0]) ==> n >= 1
  {
    if |s| == 0 || IsSpace(s[0]) then 0 else 1 + WordLength(s[1..])
  }

  /** The maximal runs of non-space characters of `s`, in order: what
      `s.trim().split(/\s+/)` yields for a string with a non-space character. */
  function Words(s: string): (ws: seq<string>)
    ensures forall i :: 0 <= i < |ws| ==> ws[i] != [] && NoSpace(ws[i])
    decreases |s|
  {
    if s == [] then []
    else if IsSpace(s[0]) then Words(s[1..])
    else
      var n := WordLength(s);
      var rest := Words(s[n..]);
      var ws := [s[..n]] + rest;
      assert forall i :: 1 <= i < |ws| ==> ws[i] == rest[i - 1];
      ws
  }

  /** The words of a split laid end to end. */
  function Joined(ws: seq<string>): string {
    if ws == [] then [] else ws[0] + Joined(ws[1..])
  }

  /** The non-space characters of `s`, in order. */
  function NonSpaceChars(s: string): string {
    if s == [] then [] else (if IsSpace(s[0]) then [] else [s[0]]) + NonSpaceChars(s[1..])
  }

  /** Splitting loses no text: the words, laid end to end, are exactly the
      non-space characters of `s`, in order. */
  lemma {:induction false} WordsKeepText(s: string)
    ensures Joined(Words(s)) == NonSpaceChars(s)
    decreases |s|
  {
    if s != [] {
      if IsSpace(s[0]) {
        WordsKeepText(s[1..]);
      } else {
        var n := WordLength(s);
        WordsKeepText(s[n..]);
        NonSpaceSplit(s, n);
      }
    }
  }

  lemma {:induction false} NonSpaceSplit(s: string, n: nat)
    requires n <= |s| && NoSpace(s[..n])
    ensures NonSpaceChars(s) == s[..n] + NonSpaceChars(s[n..])
    decreases n
  {
    if n > 0 {
      assert !IsSpace(s[0]);
      assert s[1..][..n - 1] == s[1..n];
      NonSpaceSplit(s[1..], n - 1);
      assert s[1..][n - 1..] == s[n..];
      assert s[..n] == [s[0]] + s[1..n];
    }
  }

  /** Decimal digits of a natural number, most significant first, no leading zero. */
  function NatToString(n: nat): (r: string)
    ensures |r| >= 1
    ensures forall i :: 0 <= i < |r| ==> '0' <= r[i] <= '9'
    ensures r[0] == '0' <==> n == 0
  {
    if n < 10 then [DigitChar(n)] else NatToString(n / 10) + [DigitChar(n % 10)]
  }

  function DigitChar(d: nat): (c: char)
    requires d < 10
    ensures '0' <= c <= '9' && c as int - '0' as int == d
  {
    (('0' as int) + d) as char
  }

  /** JavaScript's `${n}` for an integer. */
  function IntToString(n: int): (r: string)
    ensures |r| >= 1
  {
    if n < 0 then "-" + NatToString(-n) else NatToString(n)
  }

  /** Reading the digits back recovers the number: decimal rendering loses nothing. */
  function DigitsValue(s: string): int
    decreases |s|
  {
    if s == [] then 0 else 10 * DigitsValue(s[..|s| - 1]) + (s[|s| - 1] as int - '0' as int)
  }

  lemma {:induction false} NatToStringRoundTrip(n: nat)
    ensures DigitsValue(NatToString(n)) == n
  {
    if n >= 10 {
      NatToStringRoundTrip(n / 10);
      var s := NatToString(n);
      assert s[..|s| - 1] == NatToString(n / 10);
    }
  }

  lemma IntToStringSign(n: int)
    ensures IntToString(n)[0] == '-' <==> n < 0
  {
  }

  lemma NatToStringInjective(a: nat, b: nat)
    requires NatToString(a) == NatToString(b)
    ensures a == b
  {
    NatToStringRoundTrip(a);
    NatToStringRoundTrip(b);
  }

  lemma IntToStringInjective(a: int, b: int)
    requires IntToString(a) == IntToString(b)
    ensures a == b
  {
    IntToStringSign(a);
    IntToStringSign(b);
    if a < 0 {
      assert b < 0;
      assert NatToString(-a) == IntToString(a)[1..] == IntToString(b)[1..] == NatToString(-b);
      NatToStringInjective(-a, -b);
    } else {
      assert b >= 0;
      NatToStringInjective(a, b);
    }
  }

  /** SQLite's BINARY collation on text: `a <= b` character by character. */
  predicate TextLe(a: string, b: string)
    decreases |a|
  {
    if a == [] then true
    else if b == [] then false
    else if a[0] != b[0] then a[0] < b[0]
    else TextLe(a[1..], b[1..])
  }

  /** Number of occurrences of `c` in `s`. */
  function Occurrences(s: string, c: char): (n: nat)
    ensures n <= |s|
  {
    if s == [] then 0 else (if s[0] == c then 1 else 0) + Occurrences(s[1..], c)
  }

  lemma {:induction false} OccurrencesAppend(a: string, b: string, c: char)
    ensures Occurrences(a + b, c) == Occurrences(a, c) + Occurrences(b, c)
  {
    if a != [] {
      assert (a + b)[1..] == a[1..] + b;
      OccurrencesAppend(a[1..], b, c);
    } else {
      assert a + b == b;
    }
  }
}

=== FILE: ticket_store.dfy ===
/** The local `tickets` table and the operations of `ticketDb` in
    src/services/database.ts. The table is the sequence of its rows plus the
    AUTOINCREMENT high-water mark; the row order stands for the order
    `getTickets` reads them in. */
module TicketStore {
  import opened Wrappers
  import opened Records
  import opened Seqs

  datatype TicketTable = TicketTable(rows: seq<Ticket>, lastId: nat)

  /** What the PRIMARY KEY AUTOINCREMENT column guarantees: every row has a
      positive id no larger than the last one handed out, and ids are unique. */
  predicate Valid(t: TicketTable) {
    && (forall i :: 0 <= i < |t.rows| ==> 1 <= t.rows[i].id <= t.lastId)
    && DistinctBy(t.rows, (x: Ticket) => x.id)
  }

  const Empty := TicketTable([], 0)

  datatype SaveError = IncompleteTicket

  /** The value `saveTicket` resolves with. */
  datatype Saved = Saved(id: int, isNew: bool)

  /** The fields `saveTicket` refuses to do without. */
  predicate Complete(t: Ticket) {
    t.userId != 0 && t.mealId != 0 && t.uuid != ""
  }

  /** The row written for `t`: a missing creation time becomes the clock's `nowIso`. */
  function Stored(t: Ticket, nowIso: string): Ticket {
    t.(createdAt := if t.createdAt == "" then nowIso else t.createdAt)
  }

  function Overwrite(rows: seq<Ticket>, row: Ticket): (r: seq<Ticket>)
    ensures |r| == |rows|
    ensures forall i :: 0 <= i < |rows| ==> r[i] == (if rows[i].id == row.id then row else rows[i])
  {
    seq(|rows|, i requires 0 <= i < |rows| => if rows[i].id == row.id then row else rows[i])
  }

  /** `saveTicket`: validate, then UPDATE by id when the ticket has one, else INSERT. */
  function SaveTicket(table: TicketTable, t: Ticket, nowIso: string): (r: Result<(Saved, TicketTable), SaveError>)
    ensures r.Failure? <==> !Complete(t)
    ensures r.Success? && t.id != 0 ==>
      && r.value.0 == Saved(t.id, false)
      && r.value.1.lastId == table.lastId
      && |r.value.1.rows| == |table.rows|
      && (forall i :: 0 <= i < |table.rows| && table.rows[i].id != t.id ==> r.value.1.rows[i] == table.rows[i])
      && (forall i :: 0 <= i < |table.rows| && table.rows[i].id == t.id ==> r.value.1.rows[i] == Stored(t, nowIso))
    ensures r.Success? && t.id == 0 ==>
      && r.value.0.isNew
      && r.value.0.id == table.lastId + 1
      && r.value.1.lastId == table.lastId + 1
      && |r.value.1.rows| == |table.rows| + 1
      && r.value.1.rows[..|table.rows|] == table.rows
      && r.value.1.rows[|table.rows|] == Stored(t, nowIso).(id := r.value.0.id)
      && (Valid(table) ==> forall i :: 0 <= i < |table.rows| ==> table.rows[i].id != r.value.0.id)
    ensures r.Success? && Valid(table) ==> Valid(r.value.1)
  {
    if !Complete(t) then Failure(IncompleteTicket)
    else if t.id != 0 then
      Success((Saved(t.id, false), table.(rows := Overwrite(table.rows, Stored(t, nowIso)))))
    else
      var id := table.lastId + 1;
      var rows' := table.rows + [Stored(t, nowIso).(id := id)];
      assert Valid(table) ==> DistinctBy(rows', (x: Ticket) => x.id) by {
        if Valid(table) {
          forall i, j | 0 <= i < j < |rows'| ensures rows'[i].id != rows'[j].id {
            if j == |table.rows| {
              assert rows'[i] == table.rows[i];
            }
          }
        }
      }
      Success((Saved(id, true), TicketTable(rows', id)))
  }

  /** The rows of the `(user, meal, period)` triple. */
  predicate SameTriple(x: Ticket, userId: int, mealId: int, periodId: int) {
    x.userId == userId && x.mealId == mealId && x.periodId == periodId
  }

  /** `ticketExists`: `SELECT COUNT(*) ... WHERE` the three ids match, compared with 0. */
  function TicketExists(table: TicketTable, userId: int, mealId: int, periodId: int): (r: bool)
    ensures r <==> exists i :: 0 <= i < |table.rows| && SameTriple(table.rows[i], userId, mealId, periodId)
  {
    CountPositive(table.rows, (x: Ticket) => SameTriple(x, userId, mealId, periodId));
    Count(table.rows, (x: Ticket) => SameTriple(x, userId, mealId, periodId)) > 0
  }

  /** The uuid plays no part in the duplicate check: rows that agree on the
      three ids give the same answer whatever their uuids. */
  lemma TicketExistsIgnoresUuid(a: TicketTable, b: TicketTable, userId: int, mealId: int, periodId: int)
    requires |a.rows| == |b.rows|
    requires forall i :: 0 <= i < |a.rows| ==> a.rows[i].(uuid := "") == b.rows[i].(uuid := "")
    ensures TicketExists(a, userId, mealId, periodId) == TicketExists(b, userId, mealId, periodId)
  {
    if TicketExists(a, userId, mealId, periodId) {
      var i :| 0 <= i < |a.rows| && SameTriple(a.rows[i], userId, mealId, periodId);
      assert a.rows[i].(uuid := "").userId == b.rows[i].(uuid := "").userId;
    }
    if TicketExists(b, userId, mealId, periodId) {
      var i :| 0 <= i < |b.rows| && SameTriple(b.rows[i], userId, mealId, periodId);
      assert a.rows[i].(uuid := "").userId == b.rows[i].(uuid := "").userId;
    }
  }

  datatype Stats = Stats(total: nat, pending: nat, synced: nat)

  predicate InScope(x: Ticket, periodId: int, mealId: int) {
    x.periodId == periodId && x.mealId == mealId
  }

  /** `getTicketStats`: three counts over the rows of one period and meal. */
  function TicketStats(table: TicketTable, periodId: int, mealId: int): (r: Stats)
    ensures r.total == r.pending + r.synced
    ensures r.total == |Filter(table.rows, (x: Ticket) => InScope(x, periodId, mealId))|
    ensures r.pending == |Filter(table.rows, (x: Ticket) => InScope(x, periodId, mealId) && x.pending)|
  {
    var scope := (x: Ticket) => InScope(x, periodId, mealId);
    var pend := (x: Ticket) => InScope(x, periodId, mealId) && x.pending;
    var done := (x: Ticket) => InScope(x, periodId, mealId) && !x.pending;
    CountSplit(table.rows, scope, (x: Ticket) => x.pending, pend, done);
    CountIsFilterLength(table.rows, scope);
    CountIsFilterLength(table.rows, pend);
    Stats(Count(table.rows, scope), Count(table.rows, pend), Count(table.rows, done))
  }

  /** `deleteTicketByUuid`: the empty uuid is a no-op, otherwise every row with
      that uuid goes and every other row stays, in order. */
  function DeleteTicketByUuid(table: TicketTable, uuid: string): (r: TicketTable)
    ensures uuid == "" ==> r == table
    ensures r.lastId == table.lastId
    ensures forall i :: 0 <= i < |r.rows| ==> r.rows[i] in table.rows && (uuid == "" || r.rows[i].uuid != uuid)
    ensures forall i :: 0 <= i < |table.rows| && table.rows[i].uuid != uuid ==> table.rows[i] in r.rows
    ensures uuid != "" ==> |r.rows| == |table.rows| - Count(table.rows, (x: Ticket) => x.uuid == uuid)
    ensures Valid(table) ==> Valid(r)
  {
    if uuid == "" then table
    else
      var keep := (x: Ticket) => x.uuid != uuid;
      var drop := (x: Ticket) => x.uuid == uuid;
      assert forall x :: keep(x) == !drop(x);
      CountComplement(table.rows, drop, keep);
      CountIsFilterLength(table.rows, keep);
      var r := table.(rows := Filter(table.rows, keep));
      assert Valid(table) ==> Valid(r) by {
        if Valid(table) {
          FilterDistinct(table.rows, keep, (x: Ticket) => x.id);
        }
      }
      r
  }

  /** `syncService.syncData`: every pending row with a truthy id gets
      `UPDATE ... SET sync_pending = 0 WHERE id = ?`. */
  function MarkAllSynced(table: TicketTable): (r: TicketTable)
    ensures r.lastId == table.lastId && |r.rows| == |table.rows|
    ensures forall i :: 0 <= i < |table.rows| ==> r.rows[i].(pending := table.rows[i].pending) == table.rows[i]
    ensures Valid(table) ==> forall i :: 0 <= i < |r.rows| ==> !r.rows[i].pending
  {
    var rows := table.rows;
    table.(rows := seq(|rows|, i requires 0 <= i < |rows| =>
      if rows[i].id != 0 && exists j :: 0 <= j < |rows| && rows[j].pending && rows[j].id == rows[i].id
      then rows[i].(pending := false) else rows[i]))
  }
}

=== FILE: wrappers.dfy ===
/** Failure-carrying values used across the model: an optional value and a
    success-or-error result, standing in for JavaScript's `null` and for a
    thrown exception. */
module Wrappers {

  datatype Option<+T> = None | Some(value: T) {
    function GetOr(default: T): T {
      match this
      case Some(v) => v
      case None => default
    }
  }

  datatype Result<+R, +E> = Success(value: R) | Failure(error: E) {
    predicate IsFailure() {
      Failure?
    }
  }
}
